=== FILE: README.md ===
# Shutter driver model

A Dafny model of the roller-shutter driver of the OpenBK7231T firmware
(`src/driver/drv_shutter.c`). The driver keeps up to ten shutters. Each one
is bound to two relay channels: one drives the motor open, one drives it
closed. The driver estimates the position (0 % closed … 100 % open) by
integrating the motor's on-time against a configured full travel time.
Before a motor is reversed, it waits out an interlock delay. It reports
direction, position and a cover state string over MQTT, throttled.

The model is functional. The whole driver state is a `World`:
- the ten-slot shutter table;
- the relay channel values as a `map<int, int>`;
- the answers the transport will give to the coming publish calls, one per
  call (`Ok`, `Failed` or `MemFail`, with `Failed` once the sequence runs
  out);
- the log of publish calls made.

Every driver routine is a pure function of the world. The clock reading
`now` and the MQTT readiness `ready` are parameters.

Modules:
- `Clock`: `uint32_t` millisecond timestamps and their wrapping difference.
- `Estimator`: clamping and open-loop integration of the position.
- `Shutters`: the slot record, the world, and the table invariant (sound
  slots; no channel owned by two configured shutters).
- `Publisher`: `Shutter_PublishState`, which does change detection, the
  500 ms rate limit, the 60 s forced publish, the pending-republish flag and
  per-field "last sent" bookkeeping.
- `Machine`: relays, stop, set-position with the interlock gate, the
  per-second tick, and the travel-time and interlock-delay setters.
- `MotionLemmas`: properties over several calls: tick additivity,
  convergence to the target, stop idempotence, and the interlock scenarios.
- `Commands`: the console commands, the index-defaulting rule, `SetShutter`
  validation and reset, and `DRV_Shutter_Init`.

Every operation preserves the table invariant `Inv`.

Each per-shutter operation states a frame (`Framed`): it touches only its
own slot and its own two relay channels. With channel uniqueness, this
means other shutters are never disturbed. `SetShutter` states its own
frame: the other slots are kept, and only the new pair of channels and the
slot's old pair may change value.

Where the code and its description differ, the model follows the code:
- The interlock gate closes whenever a relay reads as on before the stop.
  This includes a same-direction re-target, not only a reversal. It looks
  only at the relays, so a request during an interlock wait starts the
  motor at once. Every command calls this gate (`Machine.SetPosition`).
  The correction described under "Findings" is `Machine.SetPositionCorrected`;
  it is proved about, but no command uses it.
- The direction of a move is judged from the estimate *before* the stop
  integrates it.
- The rate-limited early return of the publisher skips the final
  `lastReportedPosition = position`.
- A tick on an idle shutter does nothing at all.
- A tick that carries the estimate onto the end of travel parks the shutter
  there, even when its target lies short of it: the limit is tested before
  the target (`MotionLemmas.OvershootParksAtLimit`). A shutter does not
  always come to rest within 0.5 of its target.

## Model

| member | source | states |
|---|---|---|
| Clock.Elapsed | src/driver/drv_shutter.c:271 | `now - startTime` in `uint32_t` is the unique 32-bit value that carries the start reading to `now`: plain difference without roll-over, `2^32 - start + now` across one roll-over |
| Clock.ElapsedUnique | src/driver/drv_shutter.c:73 | no other `uint32_t` carries the start reading to `now`, so the wrapped difference is the elapsed time |
| Clock.ElapsedAdds | src/driver/drv_shutter.c:97-104 | elapsed times along three ordered readings add up, so restarting the segment at every tick loses no time |
| Clock.ToU32 | src/driver/drv_shutter.c:617-623 | an integer argument converted to `uint32_t` keeps values in range and wraps negative ones to `v + 2^32` |
| Estimator.Clamp | src/driver/drv_shutter.c:102-103 | the result lies in [0, 100], equals the input inside the range and the nearer bound outside it |
| Estimator.Travelled | src/driver/drv_shutter.c:97-98 | the percentage travelled in `elapsed` ms is non-negative, reaches 100 exactly when `elapsed` reaches the full travel time |
| Estimator.Advance | src/driver/drv_shutter.c:96-103 | one integration step stays in [0, 100], never moves against the motor's direction, is the identity for zero elapsed time, and is `position ± elapsed·100/travel` when that lies inside the range |
| Estimator.TravelledAdds | src/driver/drv_shutter.c:97-98 | the travelled percentage is additive in elapsed time |
| Estimator.AdvanceComposes | src/driver/drv_shutter.c:96-105 | two integration steps of `e1` and `e2` ms land where one step of `e1 + e2` ms does |
| Estimator.FullTravelReachesLimit | src/driver/drv_shutter.c:107-116 | running for at least the full travel time ends at fully open when opening and at fully closed when closing, from any start |
| Shutters.PutKeepsInv | src/driver/drv_shutter.c:33-52 | rewriting one slot with a sound record and the same configuration keeps every slot sound and channels unshared |
| Publisher.Label | src/driver/drv_shutter.c:157-176 | the cover state is "opening"/"closing" exactly for a running motor, otherwise "open" from 99 %, "closed" up to 1 %, "stopped" between; it fits the 16-byte buffer |
| Publisher.Calls | src/driver/drv_shutter.c:192-233 | a due publish makes one to three calls with the oracle's answers, each carrying the current direction, position or label; a field is sent exactly when it changed or the publish is forced or pending, and a forced or pending one sends all three; every round makes at most one call per field, in the order direction, position, state |
| Publisher.Record | src/driver/drv_shutter.c:202-246 | after the calls, each `lastSent*` moves only to the value whose own call returned OK, the publish time and pending flag change exactly when the last call returned OK or MEM_FAIL, and the reported position catches up |
| Publisher.Throttle | src/driver/drv_shutter.c:160-246 | nothing but bookkeeping changes; calls are made exactly when MQTT is ready, something is due, and the rate limit is passed or a republish is pending, and then they are exactly the calls `Calls` makes for the record, the time and the answers; not ready sets the pending flag; a rate-limited publish leaves the slot untouched; the calls come in the order direction, position, state, at most one per field |
| Publisher.AnswersFollowCallOrder | src/driver/drv_shutter.c:197-233 | with the direction and the state changed and the answers failed, then OK, the direction call gets the failure and the state call the OK: the state is recorded as sent and the direction stays due |
| Publisher.ThrottleFieldBookkeeping | src/driver/drv_shutter.c:202-233 | each `lastSent*` field moves, and only to the current value, exactly when its own publish returned OK |
| Publisher.PublishState | src/driver/drv_shutter.c:147-152 | an unconfigured index changes nothing; otherwise only slot `i`'s bookkeeping changes, the call log grows by the calls made and the oracle is consumed by as many answers |
| Publisher.RoundLog | src/driver/drv_shutter.c:160-246 | a throttler round only appends to the call log; with MQTT down it appends nothing, consumes no answer and leaves the publish pending |
| Publisher.RateLimitSuppressesSecond | src/driver/drv_shutter.c:187-190 | a second publish less than 500 ms after one whose last call was accepted (OK or MEM_FAIL) makes no call and changes nothing but the reported position, for any record that still carries that round's publish time and pending flag, whatever else about it (position, direction, label) changed in between |
| Publisher.OutageThenCatchUp | src/driver/drv_shutter.c:241-244 | a publish while MQTT is down makes no call and leaves the republish pending, and the next publish once MQTT is up sends all three fields however soon it comes |
| Machine.Drive | src/driver/drv_shutter.c:254-255 | the two relays of a slot take the given values and every other channel keeps its value |
| Machine.SetRelayChannels | src/driver/drv_shutter.c:249-261 | the slot's two relays take the given values, the switch time is noted exactly when one of them is non-zero, nothing else changes, unconfigured indices are ignored |
| Machine.Stop | src/driver/drv_shutter.c:263-287 | the shutter ends idle with both relays off; the estimate is integrated exactly when a motor was running (never in interlock wait) and moves only the way the motor ran; targets, travel time and start time are kept; the switch time is noted on request; the stopped record then goes through exactly one throttler round, whose calls are logged and whose answers are consumed |
| Machine.Toward | src/driver/drv_shutter.c:303-309 | the new direction is opening exactly when the target lies more than 0.5 above the estimate, closing exactly when more than 0.5 below, idle otherwise |
| Machine.Settle | src/driver/drv_shutter.c:311-318 | inside the dead band the shutter ends idle, relays off, with the target as its estimate, its targets, travel time, delay and start time kept, and the switch time noted as `now`; after the stop's round, exactly one more throttler round runs on the settled record; the call log only grows, and with MQTT down nothing is sent and the publish is left pending |
| Machine.Hold | src/driver/drv_shutter.c:321-335 | the interlock branch ends in interlock wait with the remembered direction and target, start time `now`, the stopped estimate, both relays off, travel time, delay and switch time kept; after the stop's round, exactly one more throttler round runs on the waiting record; the call log only grows, and with MQTT down nothing is sent and the publish is left pending |
| Machine.Start | src/driver/drv_shutter.c:321-350 | the immediate branch runs the new direction from `now` with exactly that direction's relay on and the stopped estimate, the switch time noted as `now`, and the remembered direction, travel time and delay kept; after the stop's round, exactly one more throttler round runs on the running record; the call log only grows, and with MQTT down nothing is sent and the publish is left pending |
| Machine.MoveTo | src/driver/drv_shutter.c:289-351 | the clamped target is settled inside the dead band; otherwise the shutter waits out the interlock exactly when the gate is shut and starts at once otherwise, always from the stopped estimate and only in its own slot; every branch keeps the travel time and delay; the switch time becomes `now` in the dead band and on an immediate start and is kept by a wait; the dead band also keeps both targets; the call log only grows, and with MQTT down nothing is sent and the publish is left pending |
| Machine.SetPosition | src/driver/drv_shutter.c:299-301 | the relay-only gate as written: a request during an interlock wait finds both relays off and starts the motor at once in the direction it calls for |
| Machine.SetPositionCorrected | src/driver/drv_shutter.c:323 | the corrected gate agrees with the code's gate outside an interlock wait, and during one with a non-zero delay never switches a relay on: the shutter waits again or settles |
| Machine.ReportProgress | src/driver/drv_shutter.c:138-142 | the end-of-tick report changes only publish bookkeeping and never the relays or the motion |
| Machine.ReportProgressFires | src/driver/drv_shutter.c:138-142 | the report fires exactly when the estimate moved at least 2.0 since the last report or a running shutter's estimate equals the last reported one; then the throttler runs (its calls are logged and its answers consumed) and the estimate is recorded as reported even when the throttler was rate limited; otherwise nothing changes |
| Machine.ReportLog | src/driver/drv_shutter.c:138-142 | the progress report only appends to the call log; with MQTT down it makes no call and consumes no answer, and a pending publish stays pending |
| Machine.Release | src/driver/drv_shutter.c:72-89 | when the delay has run out the remembered direction takes over from `now` with exactly its relay on and the estimate unchanged, and one throttler round runs on the released record |
| Machine.Advanced | src/driver/drv_shutter.c:95-137 | a running shutter integrates the time since the last tick and restarts its segment at `now`; once the estimate meets or crosses the target it stops idle with relays off, snapped to the limit it hit or to the target, and one throttler round runs on the parked record; otherwise it runs on with relays untouched and nothing published |
| Machine.AdvancedLog | src/driver/drv_shutter.c:107-137 | the integration step only appends to the call log; with MQTT down it makes no call, and a stop leaves its publish pending |
| Machine.RunPublishes | src/driver/drv_shutter.c:95-142 | a tick of a running shutter (the integration step, then the progress report) only appends to the call log; with MQTT down it makes no call, and a shutter it stopped is left with its publish pending |
| Machine.TickSlot | src/driver/drv_shutter.c:68-144 | an unconfigured or idle shutter, and one whose interlock delay has not run out, is left exactly as it was; a wait past its delay is released; a running one advances as above; targets and settings are kept |
| Machine.TickPublishes | src/driver/drv_shutter.c:72-142 | a tick only appends to the call log; with MQTT down it makes no call and consumes no answer, and a shutter whose direction changed is left with its publish pending; a released wait makes exactly one throttler round on the released record |
| Machine.SetInterlockDelay | src/driver/drv_shutter.c:353-361 | any `uint32_t` delay is stored, nothing about motion or relays changes, and exactly one throttler round runs on the updated record |
| Machine.SetTravelTime | src/driver/drv_shutter.c:363-375 | a travel time under 1000 ms changes nothing at all; an accepted one is stored, nothing about motion or relays changes, and exactly one throttler round runs on the updated record |
| Machine.TickKeepsSwitchTime | src/driver/drv_shutter.c:72-137 | a tick never notes a switch time, even when it switches a relay on or off, and a released wait with no remembered direction writes no relay |
| Machine.TickSlotLocal | src/driver/drv_shutter.c:68-142 | what a tick does to a slot's motion and to its two relays depends only on that slot and those relays |
| Machine.ReleaseLocal | src/driver/drv_shutter.c:72-89 | what a released wait does to the slot's motion and its two relays depends only on that slot and those relays |
| Machine.AdvancedLocal | src/driver/drv_shutter.c:95-137 | what the integration step does to a running slot's motion and its two relays depends only on that slot and those relays |
| Machine.TickSlotLocalUnready | src/driver/drv_shutter.c:68-142 | with MQTT down the whole slot record a tick leaves, bookkeeping included, depends only on that slot and its two relays |
| Machine.TickLeavesOthers | src/driver/drv_shutter.c:68-70 | a tick of one slot leaves every other slot, and the relays of every other configured slot, as they were |
| Machine.OnEverySecond | src/driver/drv_shutter.c:65-145 | one tick of every slot keeps the invariant and every slot's configuration; each configured shutter ends with the motion and relay values a tick of that shutter alone gives it, and with MQTT down with exactly the record it gives it; unconfigured and idle shutters, and the relays of idle ones, are untouched; the call log only grows, and with MQTT down no call is made and no answer consumed |
| MotionLemmas.OtherShuttersUndisturbed | src/driver/drv_shutter.c:541-551 | an operation on one shutter leaves every other configured shutter and both of its relays exactly as they were |
| MotionLemmas.StopIsIdempotent | src/driver/drv_shutter.c:270-287 | a second stop keeps the estimate, stays idle, writes the same relay values, and makes exactly one further throttler round on the idle record; with MQTT down that round sends nothing and leaves the publish pending |
| MotionLemmas.TicksIntegrateSinceLastTick | src/driver/drv_shutter.c:96-105 | two ticks that do not reach the target leave the same estimate as one tick at the later time: time is integrated once |
| MotionLemmas.Ticks | src/driver/drv_shutter.c:65-145 | any number of periodic ticks keeps the invariant and touches only the ticked slot |
| MotionLemmas.ProgressStep | src/driver/drv_shutter.c:95-137 | one more tick keeps the shutter either running on the integrated estimate short of its target, or stopped with relays off at its target or the end of travel in its direction |
| MotionLemmas.TicksProgress | src/driver/drv_shutter.c:95-137 | after `n` ticks a running shutter is either still running exactly on the estimate integrated over `n` periods, or stopped with relays off at its target or its end of travel |
| MotionLemmas.TicksReachTarget | src/driver/drv_shutter.c:107-137 | once the travel integrated over the ticks covers the way to the target, the shutter is idle, relays off, at its target or its end of travel |
| MotionLemmas.OvershootParksAtLimit | src/driver/drv_shutter.c:107-129 | the end of travel is tested before the target: an opening shutter at 90 % aimed at 95 % with a 10 s travel time, ticked after 1 s, parks idle at 100 %, more than the 0.5 dead band beyond its target |
| MotionLemmas.TicksOverFullTravelStop | src/driver/drv_shutter.c:107-116 | ticks adding up to a full travel time always bring a running shutter to rest |
| MotionLemmas.OpenRequestStartsAtOnce | src/driver/drv_shutter.c:337-346 | an open request on an idle, fully closed shutter with relays off starts opening at once with only the open relay on |
| MotionLemmas.ScenarioOpenFully | src/driver/drv_shutter.c:289-351 | opening from closed over a 10 s travel time, ten one-second ticks leave the shutter fully open, idle, relays off |
| MotionLemmas.ScenarioReversal | src/driver/drv_shutter.c:323-335 | reversing a running shutter stops it into an interlock wait; ticks before the delay change nothing and the first tick after it switches on the other relay |
| MotionLemmas.AsWrittenReversalCounterexample | src/driver/drv_shutter.c:299-301 | as written, two open requests 0-499 ms apart on a closing shutter switch the open relay on before the 500 ms delay since the close relay went off has passed |
| MotionLemmas.CorrectedReversalWaits | src/driver/drv_shutter.c:323-335 | with the corrected gate the same two requests leave the shutter waiting with relays off, and the open relay goes on only a full delay later |
| Commands.CountActive | src/driver/drv_shutter.c:408-413 | no configured slot is counted exactly when none is configured |
| Commands.LastActive | src/driver/drv_shutter.c:408-413 | the remembered index is configured and no later one is, or it is -1 and none is |
| Commands.SingleActiveIsLast | src/driver/drv_shutter.c:415-417 | the count is one exactly when the remembered index is the only configured shutter |
| Commands.OnlyActiveIsFound | src/driver/drv_shutter.c:408-417 | the only configured shutter is counted once and remembered by the loop |
| Commands.ShutterIndexArg | src/driver/drv_shutter.c:402-433 | an explicit index is taken exactly when it names a configured shutter (else bad argument); with no index the one configured shutter is taken exactly when there is exactly one (else not enough arguments) |
| Commands.SuffixIndex | src/driver/drv_shutter.c:484-487 | a command name carries an index exactly when it is longer than the prefix, starts with it and continues with a digit |
| Commands.DecimalValue | src/driver/drv_shutter.c:485 | the digits of a number read back as that number |
| Commands.DigitRunOfDigits | src/driver/drv_shutter.c:485 | the digit run of a numeral followed by a non-digit is the numeral |
| Commands.SuffixRoundTrip | src/driver/drv_shutter.c:668-670 | the name `prefix` + decimal of `n` is read back as shutter `n` |
| Commands.SetPositionHeadsFor | src/driver/drv_shutter.c:289-351 | a set-position request on a configured shutter settles at the target inside the dead band; otherwise it aims at it from `now` with travel time and delay kept, and waits with both relays off (switch time kept) exactly when a relay read as on and the delay is non-zero, and runs that way with its relay on (switch time `now`, remembered direction kept) otherwise; in the dead band the targets and settings are kept and the switch time is `now` |
| Commands.StopByCommand | src/driver/drv_shutter.c:263-287 | a commanded stop leaves the shutter idle, relays off, at the stopped estimate, with the switch time noted |
| Commands.ShutterOpen | src/driver/drv_shutter.c:435-451 | any lookup failure is a bad argument with nothing changed; a shutter already opening is stopped; any other is sent to fully open through the code's relay-only gate |
| Commands.ShutterClose | src/driver/drv_shutter.c:453-469 | any lookup failure is a bad argument with nothing changed; a shutter already closing is stopped; any other is sent to fully closed through the code's relay-only gate |
| Commands.ShutterStop | src/driver/drv_shutter.c:471-479 | any lookup failure is a bad argument with nothing changed; otherwise the shutter is stopped |
| Commands.ShutterPosition | src/driver/drv_shutter.c:481-516 | the suffixed form always succeeds and ignores an unknown shutter; the plain form needs an argument, defaults a lone percentage to shutter 0, refuses an unknown shutter, and sends a known one toward the clamped percentage through the code's relay-only gate |
| Commands.ShutterState | src/driver/drv_shutter.c:665-706 | with too few arguments nothing changes; an unknown shutter or action is a bad argument; actions 0, 1 and 2 close, open (both through the code's relay-only gate) and stop |
| Commands.CoverActionsMatchButtons | src/driver/drv_shutter.c:690-699 | cover action 2 is the stop command, and actions 1 and 0 are the open and close commands whenever those would not toggle into a stop |
| Commands.Configured | src/driver/drv_shutter.c:561-578 | the fresh record is configured on the given channels, fully closed, idle, with 30 s travel and 500 ms delay, the switch time `now`, nothing counted as sent, a full publish pending, and the old start time kept |
| Commands.ConfigureKeepsInv | src/driver/drv_shutter.c:529-551 | writing an accepted configuration keeps every slot sound and every channel owned by at most one configured shutter |
| Commands.ReconfiguredRelays | src/driver/drv_shutter.c:555-596 | the new channels read 0, so do the old ones of a slot being reconfigured, and every other channel keeps its value |
| Commands.SetShutter | src/driver/drv_shutter.c:518-603 | with fewer than three arguments nothing changes; otherwise the command succeeds exactly for an in-range index, two distinct channels in (0, CHANNEL_MAX) and no clash with another configured shutter, leaving the world unchanged on refusal; on success the slot is reset to closed, idle, 30 s travel, 500 ms delay with relays off, the old pair of a reconfigured slot is off too, every other channel and slot is kept, a ready transport gets direction 0, position 0 and "closed", and an unready one leaves the publish pending with nothing counted as sent |
| Commands.SetShutterNeverSharesChannels | src/driver/drv_shutter.c:543-551 | an accepted configuration shares no channel with any other configured shutter |
| Commands.ShutterSetInterlockDelay | src/driver/drv_shutter.c:605-633 | no argument is not enough; an unknown shutter is a bad argument; otherwise the `uint32_t` conversion of the value becomes the delay and nothing else about motion changes |
| Commands.ShutterSetTravelTime | src/driver/drv_shutter.c:635-663 | as above for the travel time, except that a converted value under 1000 ms changes nothing although the command still succeeds |
| Commands.Init | src/driver/drv_shutter.c:708-718 | after initialisation no slot is configured, the invariant holds and every slot's publish bookkeeping is at its "never sent" markers (direction -99, position -999, empty state, publish time 0, reported position -1, nothing pending) |
| Commands.NothingMovesBeforeSetShutter | src/driver/drv_shutter.c:402-433 | until a shutter is configured, open, close and stop are refused with nothing changed |

## Left out

- Logging (`addLogAdv`) has no effect on state and is not modelled.
- Topic and payload formatting (`snprintf`, `%.0f` rounding of the position
  payload) is not modelled. A publish is modelled as a message carrying the
  exact value.
- IEEE single-precision arithmetic is not modelled: positions, targets and
  the travelled percentage are mathematical reals, and `fabs` is an
  absolute value.
- `rtos_get_time` is the `now` parameter, read once per operation. The code
  may read the clock several times within one call.
- `MQTT_IsReady` is the `ready` parameter, one value per operation. The
  publisher asks twice, and the model assumes both answers agree.
- `MQTT_Publish` is replaced by an oracle sequence of answers. Calls beyond
  the sequence count as failed.
- `CHANNEL_MAX` is defined in new_pins.h, which is not part of this model.
  It is the `channelMax` parameter of `SetShutter`.
- The `SetChannelPrivate` / `SetChannelVisible` commands that `SetShutter`
  issues through `CMD_ExecuteCommand` are calls into the command framework.
  They are not modelled.
- `Shutter_DoDiscovery` (Home Assistant discovery JSON) is not modelled:
  it is a foreign JSON builder plus a queued publish.
- `Shutter_AppendInformationToHTTPIndexPage` is not modelled: it is HTML
  rendering that only forwards command strings.
- Command registration in `DRV_Shutter_Init` is not modelled.
- The tokenizer is not modelled. The arguments arrive already split, and
  each token is read both as an integer and as a float (`Arg`). The whole
  argument string read by `atoi`/`atof` is the `whole` parameter. Overflow
  in `atoi` and in the suffix number is not modelled.
- `Commands.ShutterPosition`: no range check is
  stated for the float-to-percentage conversion, because a float argument
  is taken as an exact real.
- Machine.SetPositionCorrected: closes only the gap of a request during an
  interlock wait. A reversal right after a commanded stop or a tick stop
  still starts at once, as in the code. The code notes `lastSwitchTime` but
  never reads it, and the model does not invent a rule for it. No command
  calls the corrected gate: the commands follow the code.
- MotionLemmas.TicksReachTarget: states that the shutter rests at its target
  or at the end of travel, not within 0.5 of the target, because a tick that
  reaches a limit parks there first (`MotionLemmas.OvershootParksAtLimit`).
- The 32-bit wrap of the clock is modelled in `Elapsed`. The multi-tick
  lemmas (`Ticks` and what follows) assume the tick times do not roll over
  during the run (`start + Span(period, n) < 2^32`, where `Span(period, n)`
  is `n * period` by `MotionLemmas.SpanIsProduct`). `Clock.ElapsedAdds`,
  `MotionLemmas.TicksIntegrateSinceLastTick` and
  `MotionLemmas.AsWrittenReversalCounterexample` likewise take their clock
  readings in order without a roll-over in between.

## Findings

| source | as written | input that shows it | evidently intended | confidence | as-written member | corrected member |
|---|---|---|---|---|---|---|
| src/driver/drv_shutter.c:299-301 | the interlock gate asks only whether a relay reads 1 before the stop, so a request arriving during an interlock wait (both relays already off) starts the motor at once | shutter closing with the close relay on and interlock delay 500; `ShutterOpen` at t, then `ShutterPosition <i> 100` for the same shutter i at t + 100 ms: the open relay goes on 100 ms after the close relay went off | a request arriving during an interlock wait keeps the gate shut: no relay goes on before the wait's delay has passed | not executed | MotionLemmas.AsWrittenReversalCounterexample | Machine.SetPositionCorrected |

=== FILE: clock.dfy ===
/**
 * Millisecond timestamps as the firmware keeps them: `uint32_t` values read
 * from the RTOS tick counter, whose differences are taken modulo 2^32.
 */
module Clock {

  const WRAP: int := 0x1_0000_0000

  /** A value of C type `uint32_t`. */
  type u32 = x: int | 0 <= x < WRAP

  /** `now - since` evaluated in `uint32_t` arithmetic: the time that passed
      between the two readings, correct across one counter roll-over. */
  function Elapsed(now: u32, since: u32): (d: u32)
    ensures (since + d) % WRAP == now
    ensures since <= now ==> d == now - since
    ensures now < since ==> d == WRAP - since + now
  {
    (now - since) % WRAP
  }

  /** The elapsed time is the only `uint32_t` that carries `since` to `now`. */
  lemma ElapsedUnique(now: u32, since: u32, d: u32)
    requires (since + d) % WRAP == now
    ensures d == Elapsed(now, since)
  {
    if since + d < WRAP {
      assert since + d == now;
    } else {
      assert since + d - WRAP == now;
    }
  }

  /** Elapsed times add up along three readings taken in order, as long as
      the counter does not roll over in between. */
  lemma ElapsedAdds(t0: u32, t1: u32, t2: u32)
    requires t0 <= t1 <= t2
    ensures Elapsed(t2, t0) == Elapsed(t1, t0) + Elapsed(t2, t1)
  {
  }

  /** Conversion of a C `int` command argument to `uint32_t`: negative
      values wrap around to large ones. */
  function ToU32(v: int): (r: u32)
    ensures 0 <= v < WRAP ==> r == v
    ensures -WRAP <= v < 0 ==> r == v + WRAP
  {
    v % WRAP
  }
}

=== FILE: commands.dfy ===
/**
 * The console commands of the shutter driver: argument handling, the index
 * defaulting rule, the numeric suffix of the per-shutter command names, and
 * the status each command returns.
 */
module Commands {
  import opened Clock
  import opened Estimator
  import opened Shutters
  import opened Publisher
  import opened Machine

  /** `commandResult_t`, as far as these commands use it. */
  datatype Status = CmdOk | BadArgument | NotEnoughArguments

  /** One token of an argument string, as the tokenizer reads it both as an
      integer and as a float. */
  datatype Arg = Arg(asInt: int, asReal: real)

  /** What a command leaves behind: the new world and its status. */
  datatype Reply = Reply(world: World, status: Status)

  /** The outcome of looking up a shutter index among the arguments. */
  datatype Pick = Picked(index: int) | Refused(status: Status)

  // ---------------------------------------------------------------------
  // The single-active-shutter default

  /** How many of the first `n` slots are configured. */
  function CountActive(slots: seq<Shutter>, n: nat): (c: nat)
    requires n <= |slots|
    ensures c <= n
    ensures c == 0 <==> forall k :: 0 <= k < n ==> !slots[k].active
  {
    if n == 0 then 0
    else CountActive(slots, n - 1) + (if slots[n - 1].active then 1 else 0)
  }

  /** The highest configured index below `n`, or -1: what the counting loop
      leaves in its "found" variable. */
  function LastActive(slots: seq<Shutter>, n: nat): (r: int)
    requires n <= |slots|
    ensures -1 <= r < n
    ensures r >= 0 ==> slots[r].active && forall k :: r < k < n ==> !slots[k].active
    ensures r == -1 ==> forall k :: 0 <= k < n ==> !slots[k].active
  {
    if n == 0 then -1
    else if slots[n - 1].active then n - 1
    else LastActive(slots, n - 1)
  }

  /** Exactly one configured slot is counted exactly when the index the loop
      remembers is the only configured one. */
  lemma {:induction false} SingleActiveIsLast(slots: seq<Shutter>, n: nat)
    requires n <= |slots|
    ensures CountActive(slots, n) == 1 <==>
              (0 <= LastActive(slots, n) && forall k :: 0 <= k < n && slots[k].active ==> k == LastActive(slots, n))
  {
    if n > 0 && !slots[n - 1].active {
      SingleActiveIsLast(slots, n - 1);
    }
  }

  /** `j` is the one configured shutter. */
  ghost predicate OnlyActive(w: World, j: int) {
    IsActive(w, j) && forall k :: IsActive(w, k) ==> k == j
  }

  /** The one configured shutter is the one the counting loop finds. */
  lemma OnlyActiveIsFound(w: World, j: int)
    requires OnlyActive(w, j)
    ensures CountActive(w.slots, MAX_SHUTTERS) == 1 && LastActive(w.slots, MAX_SHUTTERS) == j
  {
    SingleActiveIsLast(w.slots, MAX_SHUTTERS);
    var last := LastActive(w.slots, MAX_SHUTTERS);
    assert IsActive(w, j);
    assert last >= 0 && IsActive(w, last);
    forall k | 0 <= k < MAX_SHUTTERS && w.slots[k].active
      ensures k == last
    {
      assert IsActive(w, k);
    }
  }

  /** `CMD_GetShutterIndexArg`: the first argument names the shutter; with
      no argument, the one configured shutter is meant if there is exactly
      one. The index must name a configured slot. */
  function ShutterIndexArg(w: World, args: seq<Arg>): (p: Pick)
    ensures p.Picked? ==> IsActive(w, p.index)
    ensures |args| > 0 ==>
              && (p.Picked? <==> IsActive(w, args[0].asInt))
              && (p.Picked? ==> p.index == args[0].asInt)
              && (!p.Picked? ==> p == Refused(BadArgument))
    ensures |args| == 0 ==>
              && (p.Picked? <==> exists j :: OnlyActive(w, j))
              && (p.Picked? ==> OnlyActive(w, p.index))
              && (!p.Picked? ==> p == Refused(NotEnoughArguments))
  {
    if |args| == 0 then
      SingleActiveIsLast(w.slots, MAX_SHUTTERS);
      var count := CountActive(w.slots, MAX_SHUTTERS);
      var last := LastActive(w.slots, MAX_SHUTTERS);
      if count == 1 && last != -1 then
        assert OnlyActive(w, last) by {
          forall k | IsActive(w, k) ensures k == last {
            assert w.slots[k].active;
          }
        }
        Picked(last)
      else
        assert forall j :: !OnlyActive(w, j) by {
          forall j | OnlyActive(w, j) ensures false {
            OnlyActiveIsFound(w, j);
          }
        }
        Refused(NotEnoughArguments)
    else
      var index := args[0].asInt;
      if IsActive(w, index) then Picked(index) else Refused(BadArgument)
  }

  // ---------------------------------------------------------------------
  // The numeric suffix of `ShutterPosition<N>` and `shutterstate<N>`

  predicate IsDigit(c: char) {
    '0' <= c <= '9'
  }

  function DigitValue(c: char): nat
    requires IsDigit(c)
  {
    (c as int) - ('0' as int)
  }

  /** The number of leading decimal digits of `s`. */
  function DigitRun(s: string): (n: nat)
    ensures n <= |s|
    ensures forall k :: 0 <= k < n ==> IsDigit(s[k])
    ensures n < |s| ==> !IsDigit(s[n])
  {
    if s == [] || !IsDigit(s[0]) then 0 else 1 + DigitRun(s[1..])
  }

  /** The value of a string of decimal digits, most significant first. */
  function DigitsValue(ds: string): nat
    requires forall k :: 0 <= k < |ds| ==> IsDigit(ds[k])
  {
    if ds == [] then 0 else DigitsValue(ds[..|ds| - 1]) * 10 + DigitValue(ds[|ds| - 1])
  }

  /** `atoi` of a string that starts with a digit: the value of its run of
      leading digits. */
  function LeadingNumber(s: string): nat {
    DigitsValue(s[..DigitRun(s)])
  }

  /** The index a command name carries after `prefix`, when the name is
      longer than the prefix, starts with it, and continues with a digit. */
  function SuffixIndex(cmd: string, prefix: string): (r: Option<int>)
    ensures r.Some? <==> |cmd| > |prefix| && cmd[..|prefix|] == prefix && IsDigit(cmd[|prefix|])
    ensures r.Some? ==> r.value >= 0
  {
    if |cmd| > |prefix| && cmd[..|prefix|] == prefix && IsDigit(cmd[|prefix|]) then
      Some(LeadingNumber(cmd[|prefix|..]))
    else
      None
  }

  /** The decimal text of `n`, without leading zeros. */
  function Decimal(n: nat): (s: string)
    ensures |s| > 0
    ensures forall k :: 0 <= k < |s| ==> IsDigit(s[k])
  {
    var d := ['0' + ((n % 10) as char)];
    if n < 10 then d else Decimal(n / 10) + d
  }

  lemma {:induction false} DecimalValue(n: nat)
    ensures DigitsValue(Decimal(n)) == n
  {
    var s := Decimal(n);
    if n >= 10 {
      DecimalValue(n / 10);
      assert s[..|s| - 1] == Decimal(n / 10);
    }
  }

  lemma {:induction false} DigitRunOfDigits(ds: string, rest: string)
    requires forall k :: 0 <= k < |ds| ==> IsDigit(ds[k])
    requires rest == [] || !IsDigit(rest[0])
    ensures DigitRun(ds + rest) == |ds|
  {
    if ds != [] {
      assert (ds + rest)[1..] == ds[1..] + rest;
      DigitRunOfDigits(ds[1..], rest);
    }
  }

  /** The name a command gets for shutter `n` is read back as `n`. */
  lemma SuffixRoundTrip(prefix: string, n: nat)
    ensures SuffixIndex(prefix + Decimal(n), prefix) == Some(n)
  {
    var cmd := prefix + Decimal(n);
    assert cmd[..|prefix|] == prefix;
    assert cmd[|prefix|..] == Decimal(n) + [];
    DigitRunOfDigits(Decimal(n), []);
    assert cmd[|prefix|..][..|Decimal(n)|] == Decimal(n);
    DecimalValue(n);
  }

  // ---------------------------------------------------------------------
  // Motion commands

  /** Where a set-position request for `t` at `now` sends slot `i`: settled
      at `t` inside the dead band, with the targets and settings kept and the
      switch time noted; otherwise aimed at `t` from `now` with the settings
      kept, and either running that way with its relay on (switch time
      noted) or waiting out the interlock with both off. */
  ghost predicate HeadsFor(w: World, w': World, i: int, t: real, now: u32)
    requires 0 <= i < MAX_SHUTTERS
  {
    var s, s' := w.slots[i], w'.slots[i];
    var d := Toward(s.position, t);
    if d == Idle then
      && s'.direction == Idle && s'.position == t && RelaysOff(w'.relays, s)
      && SameTargets(s', s) && s'.lastSwitchTime == now
    else
      && s'.targetPosition == t && s'.startTime == now
      && s'.travelTime == s.travelTime && s'.interlockDelay == s.interlockDelay
      && (Gate(w, s, false) ==>
            && s'.direction == InterlockWait && s'.targetDirection == d && RelaysOff(w'.relays, s)
            && s'.lastSwitchTime == s.lastSwitchTime)
      && (!Gate(w, s, false) ==>
            && s'.direction == d && Energized(w'.relays, s, d)
            && s'.targetDirection == s.targetDirection && s'.lastSwitchTime == now)
  }

  lemma SetPositionHeadsFor(w: World, i: int, target: real, now: u32, ready: bool)
    requires Inv(w) && IsActive(w, i)
    ensures var w' := SetPosition(w, i, target, now, ready);
            Framed(w, w', i) && HeadsFor(w, w', i, Clamp(target), now)
  {
  }

  /** Stopped by a command: idle, relays off, estimate integrated up to now,
      switch time noted. */
  ghost predicate StoppedBy(w: World, w': World, i: int, now: u32)
    requires 0 <= i < MAX_SHUTTERS && w.slots[i].travelTime > 0
  {
    var s, s' := w.slots[i], w'.slots[i];
    && s'.direction == Idle && RelaysOff(w'.relays, s)
    && s'.position == StoppedAt(s, now) && s'.lastSwitchTime == now
  }

  lemma StopByCommand(w: World, i: int, now: u32, ready: bool)
    requires Inv(w) && IsActive(w, i)
    ensures var w' := Stop(w, i, now, true, ready);
            Framed(w, w', i) && StoppedBy(w, w', i, now)
  {
  }

  /** `ShutterOpen`: a second press while opening stops the shutter (a
      toggle); otherwise the shutter is sent to fully open. Any failure to
      find the shutter is reported as a bad argument. */
  function ShutterOpen(w: World, args: seq<Arg>, now: u32, ready: bool): (r: Reply)
    requires Inv(w)
    ensures Inv(r.world)
    ensures ShutterIndexArg(w, args).Refused? ==> r == Reply(w, BadArgument)
    ensures var p := ShutterIndexArg(w, args);
            p.Picked? ==>
              && r.status == CmdOk && Framed(w, r.world, p.index)
              && (w.slots[p.index].direction == Opening ==> StoppedBy(w, r.world, p.index, now))
              && (w.slots[p.index].direction != Opening ==> HeadsFor(w, r.world, p.index, FULLY_OPEN, now))
  {
    match ShutterIndexArg(w, args)
    case Refused(_) => Reply(w, BadArgument)
    case Picked(i) =>
      if w.slots[i].direction == Opening then
        StopByCommand(w, i, now, ready);
        Reply(Stop(w, i, now, true, ready), CmdOk)
      else
        SetPositionHeadsFor(w, i, FULLY_OPEN, now, ready);
        Reply(SetPosition(w, i, FULLY_OPEN, now, ready), CmdOk)
  }

  /** `ShutterClose`: the mirror image of `ShutterOpen`. */
  function ShutterClose(w: World, args: seq<Arg>, now: u32, ready: bool): (r: Reply)
    requires Inv(w)
    ensures Inv(r.world)
    ensures ShutterIndexArg(w, args).Refused? ==> r == Reply(w, BadArgument)
    ensures var p := ShutterIndexArg(w, args);
            p.Picked? ==>
              && r.status == CmdOk && Framed(w, r.world, p.index)
              && (w.slots[p.index].direction == Closing ==> StoppedBy(w, r.world, p.index, now))
              && (w.slots[p.index].direction != Closing ==> HeadsFor(w, r.world, p.index, FULLY_CLOSED, now))
  {
    match ShutterIndexArg(w, args)
    case Refused(_) => Reply(w, BadArgument)
    case Picked(i) =>
      if w.slots[i].direction == Closing then
        StopByCommand(w, i, now, ready);
        Reply(Stop(w, i, now, true, ready), CmdOk)
      else
        SetPositionHeadsFor(w, i, FULLY_CLOSED, now, ready);
        Reply(SetPosition(w, i, FULLY_CLOSED, now, ready), CmdOk)
  }

  /** `ShutterStop`. */
  function ShutterStop(w: World, args: seq<Arg>, now: u32, ready: bool): (r: Reply)
    requires Inv(w)
    ensures Inv(r.world)
    ensures ShutterIndexArg(w, args).Refused? ==> r == Reply(w, BadArgument)
    ensures var p := ShutterIndexArg(w, args);
            p.Picked? ==> r.status == CmdOk && Framed(w, r.world, p.index) && StoppedBy(w, r.world, p.index, now)
  {
    match ShutterIndexArg(w, args)
    case Refused(_) => Reply(w, BadArgument)
    case Picked(i) =>
      StopByCommand(w, i, now, ready);
      Reply(Stop(w, i, now, true, ready), CmdOk)
  }

  /** `ShutterPosition` and `ShutterPosition<N>`. The suffixed form takes the
      whole argument string as the percentage and does not check the index
      (an unknown shutter is ignored, yet the command succeeds); the plain
      form takes either a percentage for shutter 0 or an index and a
      percentage, and refuses an unknown shutter. `whole` is the argument
      string read as one number, `args` its tokens. */
  function ShutterPosition(w: World, cmd: string, whole: Arg, args: seq<Arg>, now: u32, ready: bool): (r: Reply)
    requires Inv(w)
    ensures Inv(r.world)
    ensures SuffixIndex(cmd, "ShutterPosition").Some? ==>
              var i := SuffixIndex(cmd, "ShutterPosition").value;
              && r.status == CmdOk
              && (!IsActive(w, i) ==> r.world == w)
              && (IsActive(w, i) ==> Framed(w, r.world, i) && HeadsFor(w, r.world, i, Clamp(whole.asReal), now))
    ensures SuffixIndex(cmd, "ShutterPosition").None? ==>
              && (|args| == 0 ==> r == Reply(w, NotEnoughArguments))
              && (|args| > 0 ==>
                    var i := if |args| == 1 then 0 else args[0].asInt;
                    var t := if |args| == 1 then args[0].asReal else args[1].asReal;
                    && (!IsActive(w, i) ==> r == Reply(w, BadArgument))
                    && (IsActive(w, i) ==>
                          r.status == CmdOk && Framed(w, r.world, i) && HeadsFor(w, r.world, i, Clamp(t), now)))
  {
    match SuffixIndex(cmd, "ShutterPosition")
    case Some(i) =>
      if IsActive(w, i) then
        SetPositionHeadsFor(w, i, whole.asReal, now, ready);
        Reply(SetPosition(w, i, whole.asReal, now, ready), CmdOk)
      else
        Reply(SetPosition(w, i, whole.asReal, now, ready), CmdOk)
    case None =>
      if |args| == 0 then Reply(w, NotEnoughArguments)
      else
        var i := if |args| == 1 then 0 else args[0].asInt;
        var t := if |args| == 1 then args[0].asReal else args[1].asReal;
        if !IsActive(w, i) then Reply(w, BadArgument)
        else
          SetPositionHeadsFor(w, i, t, now, ready);
          Reply(SetPosition(w, i, t, now, ready), CmdOk)
  }

  /** `shutterstate` and `shutterstate<N>`: the action codes of the home
      automation cover (0 close, 1 open, 2 stop) for a configured shutter.
      Unlike the buttons, opening or closing never toggles into a stop. */
  function ShutterState(w: World, cmd: string, whole: Arg, args: seq<Arg>, now: u32, ready: bool): (r: Reply)
    requires Inv(w)
    ensures Inv(r.world)
    ensures SuffixIndex(cmd, "shutterstate").None? && |args| < 2 ==> r == Reply(w, NotEnoughArguments)
    ensures var suffix := SuffixIndex(cmd, "shutterstate");
            suffix.Some? || |args| >= 2 ==>
              var i := if suffix.Some? then suffix.value else args[0].asInt;
              var action := if suffix.Some? then whole.asInt else args[1].asInt;
              && (!IsActive(w, i) || action !in {0, 1, 2} ==> r == Reply(w, BadArgument))
              && (IsActive(w, i) && action in {0, 1, 2} ==>
                    && r.status == CmdOk && Framed(w, r.world, i)
                    && (action == 0 ==> HeadsFor(w, r.world, i, FULLY_CLOSED, now))
                    && (action == 1 ==> HeadsFor(w, r.world, i, FULLY_OPEN, now))
                    && (action == 2 ==> StoppedBy(w, r.world, i, now)))
  {
    var suffix := SuffixIndex(cmd, "shutterstate");
    if suffix.None? && |args| < 2 then Reply(w, NotEnoughArguments)
    else
      var i := if suffix.Some? then suffix.value else args[0].asInt;
      var action := if suffix.Some? then whole.asInt else args[1].asInt;
      if !IsActive(w, i) then Reply(w, BadArgument)
      else if action == 0 then
        SetPositionHeadsFor(w, i, FULLY_CLOSED, now, ready);
        Reply(SetPosition(w, i, FULLY_CLOSED, now, ready), CmdOk)
      else if action == 1 then
        SetPositionHeadsFor(w, i, FULLY_OPEN, now, ready);
        Reply(SetPosition(w, i, FULLY_OPEN, now, ready), CmdOk)
      else if action == 2 then
        StopByCommand(w, i, now, ready);
        Reply(Stop(w, i, now, true, ready), CmdOk)
      else Reply(w, BadArgument)
  }

  /** The cover actions agree with the buttons: `shutterstate i 2` is
      `ShutterStop i`, and `shutterstate i 1` / `i 0` are `ShutterOpen i` /
      `ShutterClose i` unless the button would toggle into a stop. */
  lemma CoverActionsMatchButtons(w: World, i: int, now: u32, ready: bool, whole: Arg)
    requires Inv(w) && IsActive(w, i)
    ensures ShutterState(w, "shutterstate", whole, [Arg(i, 0.0), Arg(2, 0.0)], now, ready)
            == ShutterStop(w, [Arg(i, 0.0)], now, ready)
    ensures w.slots[i].direction != Opening ==>
              ShutterState(w, "shutterstate", whole, [Arg(i, 0.0), Arg(1, 0.0)], now, ready)
              == ShutterOpen(w, [Arg(i, 0.0)], now, ready)
    ensures w.slots[i].direction != Closing ==>
              ShutterState(w, "shutterstate", whole, [Arg(i, 0.0), Arg(0, 0.0)], now, ready)
              == ShutterClose(w, [Arg(i, 0.0)], now, ready)
  {
    assert SuffixIndex("shutterstate", "shutterstate").None?;
  }

  // ---------------------------------------------------------------------
  // Configuration commands

  /** Some configured slot other than `index` already owns `open` or `close`. */
  predicate ChannelTaken(w: World, index: int, open: int, close: int) {
    exists j :: 0 <= j < MAX_SHUTTERS && j != index && w.slots[j].active &&
      (w.slots[j].channelOpen == open || w.slots[j].channelClose == open ||
       w.slots[j].channelOpen == close || w.slots[j].channelClose == close)
  }

  /** The record `SetShutter` writes: a fresh configuration that keeps only
      the old start time (which the firmware does not reset). */
  function Configured(prior: Shutter, open: int, close: int, now: u32): (s: Shutter)
    ensures s.active && s.channelOpen == open && s.channelClose == close
    ensures s.startTime == prior.startTime
    // at rest, fully closed, with the default settings
    ensures s.position == FULLY_CLOSED && s.direction == Idle && s.lastSwitchTime == now
    ensures s.targetPosition == FULLY_CLOSED && s.targetDirection == Idle
    ensures s.travelTime == SHUTTER_FULL_TIME && s.interlockDelay == DEFAULT_INTERLOCK_DELAY
    // nothing counts as sent, and a full publish is pending
    ensures s.lastSentDirection == -99 && s.lastSentPosition == -999.0 && s.lastSentState == ""
    ensures s.lastPublishTime == 0 && s.lastReportedPosition == -1.0
    ensures Forced(s, now) && Due(s, now)
  {
    Shutter(
      channelOpen := open,
      channelClose := close,
      position := FULLY_CLOSED,
      direction := Idle,
      startTime := prior.startTime,
      travelTime := SHUTTER_FULL_TIME,
      interlockDelay := DEFAULT_INTERLOCK_DELAY,
      lastSwitchTime := now,
      targetDirection := Idle,
      targetPosition := FULLY_CLOSED,
      active := true,
      lastReportedPosition := -1.0,
      lastSentDirection := -99,
      lastSentPosition := -999.0,
      lastSentState := "",
      lastPublishTime := 0,
      needsRepublish := true)
  }

  /** Whether `SetShutter` accepts a configuration. */
  predicate Acceptable(w: World, index: int, open: int, close: int, channelMax: int) {
    && 0 <= index < MAX_SHUTTERS
    && 0 < open < channelMax && 0 < close < channelMax
    && open != close
    && !ChannelTaken(w, index, open, close)
  }

  /** Writing an accepted configuration into the table keeps the invariant. */
  lemma ConfigureKeepsInv(w: World, index: int, open: int, close: int, channelMax: int, now: u32, relays: map<int, int>)
    requires Inv(w) && Acceptable(w, index, open, close, channelMax)
    ensures Inv(Put(w.(relays := relays), index, Configured(w.slots[index], open, close, now)))
  {
    var s := Configured(w.slots[index], open, close, now);
    var w' := Put(w.(relays := relays), index, s);
    forall a, b | 0 <= a < MAX_SHUTTERS && 0 <= b < MAX_SHUTTERS && a != b && w'.slots[a].active && w'.slots[b].active
      ensures Disjoint(w'.slots[a], w'.slots[b])
    {
      if a == index {
        assert !(w.slots[b].channelOpen == open || w.slots[b].channelClose == open ||
                 w.slots[b].channelOpen == close || w.slots[b].channelClose == close);
      } else if b == index {
        assert !(w.slots[a].channelOpen == open || w.slots[a].channelClose == open ||
                 w.slots[a].channelOpen == close || w.slots[a].channelClose == close);
      } else {
        assert Disjoint(w.slots[a], w.slots[b]);
      }
    }
  }

  /** The relays after a (re)configuration: the old channels of a slot that
      was configured are switched off first, then the new ones. */
  function ReconfiguredRelays(relays: map<int, int>, prior: Shutter, open: int, close: int): (r: map<int, int>)
    ensures Read(r, open) == 0 && Read(r, close) == 0
    ensures prior.active ==> Read(r, prior.channelOpen) == 0 && Read(r, prior.channelClose) == 0
    ensures forall ch :: ch != open && ch != close && (!prior.active || (ch != prior.channelOpen && ch != prior.channelClose)) ==>
              Read(r, ch) == Read(relays, ch)
  {
    var cleared := if prior.active then relays[prior.channelOpen := 0][prior.channelClose := 0] else relays;
    cleared[open := 0][close := 0]
  }

  /** `SetShutter index open close`: binds a slot to two relay channels and
      resets it to fully closed, idle, with the default travel time and
      interlock delay; the slot's state is then published. `channelMax` is
      the number of logical channels of the build. */
  function SetShutter(w: World, args: seq<Arg>, channelMax: int, now: u32, ready: bool): (r: Reply)
    requires Inv(w)
    ensures Inv(r.world)
    ensures |args| < 3 ==> r == Reply(w, NotEnoughArguments)
    ensures |args| >= 3 ==>
              var index, open, close := args[0].asInt, args[1].asInt, args[2].asInt;
              && (r.status == CmdOk <==> Acceptable(w, index, open, close, channelMax))
              && (r.status != CmdOk ==> r == Reply(w, BadArgument))
              && (r.status == CmdOk ==>
                    var s, s' := w.slots[index], r.world.slots[index];
                    && s'.active && s'.channelOpen == open && s'.channelClose == close
                    && s'.position == FULLY_CLOSED && s'.direction == Idle
                    && s'.travelTime == SHUTTER_FULL_TIME && s'.interlockDelay == DEFAULT_INTERLOCK_DELAY
                    && s'.targetPosition == FULLY_CLOSED && s'.lastSwitchTime == now
                    && RelaysOff(r.world.relays, s')
                    && (s.active ==> Read(r.world.relays, s.channelOpen) == 0 && Read(r.world.relays, s.channelClose) == 0)
                    && (forall ch :: ch != open && ch != close && (!s.active || (ch != s.channelOpen && ch != s.channelClose)) ==>
                          Read(r.world.relays, ch) == Read(w.relays, ch))
                    && (forall j :: 0 <= j < MAX_SHUTTERS && j != index ==> r.world.slots[j] == w.slots[j])
                    // the fresh slot's publish is pending, so a ready transport
                    // gets all three fields of the closed, idle shutter at once
                    && (ready ==>
                          && |r.world.sent| == |w.sent| + 3
                          && r.world.sent[..|w.sent|] == w.sent
                          && r.world.sent[|w.sent|].msg == DirectionMsg(0)
                          && r.world.sent[|w.sent| + 1].msg == PositionMsg(FULLY_CLOSED)
                          && r.world.sent[|w.sent| + 2].msg == StateMsg("closed"))
                    // an unavailable transport leaves nothing counted as sent
                    && (!ready ==>
                          && r.world.sent == w.sent && s'.needsRepublish
                          && s'.lastSentDirection == -99 && s'.lastSentPosition == -999.0
                          && s'.lastSentState == "" && s'.lastPublishTime == 0))
  {
    if |args| < 3 then Reply(w, NotEnoughArguments)
    else
      var index, open, close := args[0].asInt, args[1].asInt, args[2].asInt;
      if !Acceptable(w, index, open, close, channelMax) then Reply(w, BadArgument)
      else
        var s := w.slots[index];
        var relays := ReconfiguredRelays(w.relays, s, open, close);
        var configured := Configured(s, open, close, now);
        ConfigureKeepsInv(w, index, open, close, channelMax, now, relays);
        var w1 := Put(w.(relays := relays), index, configured);
        Reply(PublishState(w1, index, now, ready), CmdOk)
  }

  /** A reconfiguration refused for a channel clash names a channel that a
      different configured shutter owns; so no accepted configuration ever
      makes two shutters share a relay. */
  lemma SetShutterNeverSharesChannels(w: World, args: seq<Arg>, channelMax: int, now: u32, ready: bool, j: int)
    requires Inv(w) && |args| >= 3
    requires SetShutter(w, args, channelMax, now, ready).status == CmdOk
    requires 0 <= j < MAX_SHUTTERS && j != args[0].asInt && w.slots[j].active
    ensures Disjoint(SetShutter(w, args, channelMax, now, ready).world.slots[args[0].asInt], w.slots[j])
  {
    var w' := SetShutter(w, args, channelMax, now, ready).world;
    assert w'.slots[j] == w.slots[j];
  }

  /** The index and value of the two configuration commands that take
      `[index] value`: a lone value is for shutter 0. */
  function IndexAndValue(args: seq<Arg>): (int, int)
    requires |args| >= 1
  {
    if |args| == 1 then (0, args[0].asInt) else (args[0].asInt, args[1].asInt)
  }

  /** `ShutterSetInterlockDelay [index] ms`: the value is converted to
      `uint32_t`, so a negative argument becomes a very long delay. */
  function ShutterSetInterlockDelay(w: World, args: seq<Arg>, now: u32, ready: bool): (r: Reply)
    requires Inv(w)
    ensures Inv(r.world)
    ensures |args| == 0 ==> r == Reply(w, NotEnoughArguments)
    ensures |args| > 0 ==>
              var i := if |args| == 1 then 0 else args[0].asInt;
              var v := if |args| == 1 then args[0].asInt else args[1].asInt;
              && (!IsActive(w, i) ==> r == Reply(w, BadArgument))
              && (IsActive(w, i) ==>
                    && r.status == CmdOk && Framed(w, r.world, i) && r.world.relays == w.relays
                    && r.world.slots[i].interlockDelay == ToU32(v)
                    && SameMotion(r.world.slots[i], w.slots[i].(interlockDelay := ToU32(v))))
  {
    if |args| == 0 then Reply(w, NotEnoughArguments)
    else
      var (i, v) := IndexAndValue(args);
      if !IsActive(w, i) then Reply(w, BadArgument)
      else Reply(SetInterlockDelay(w, i, ToU32(v), now, ready), CmdOk)
  }

  /** `ShutterSetTravelTime [index] ms`: the command succeeds for any
      configured shutter, even when the driver refuses a travel time below
      the minimum and changes nothing. */
  function ShutterSetTravelTime(w: World, args: seq<Arg>, now: u32, ready: bool): (r: Reply)
    requires Inv(w)
    ensures Inv(r.world)
    ensures |args| == 0 ==> r == Reply(w, NotEnoughArguments)
    ensures |args| > 0 ==>
              var i := if |args| == 1 then 0 else args[0].asInt;
              var v := if |args| == 1 then args[0].asInt else args[1].asInt;
              && (!IsActive(w, i) ==> r == Reply(w, BadArgument))
              && (IsActive(w, i) ==> r.status == CmdOk)
              && (IsActive(w, i) && ToU32(v) < MIN_TRAVEL_TIME ==> r.world == w)
              && (IsActive(w, i) && ToU32(v) >= MIN_TRAVEL_TIME ==>
                    && Framed(w, r.world, i) && r.world.relays == w.relays
                    && r.world.slots[i].travelTime == ToU32(v)
                    && SameMotion(r.world.slots[i], w.slots[i].(travelTime := ToU32(v))))
  {
    if |args| == 0 then Reply(w, NotEnoughArguments)
    else
      var (i, v) := IndexAndValue(args);
      if !IsActive(w, i) then Reply(w, BadArgument)
      else Reply(SetTravelTime(w, i, ToU32(v), now, ready), CmdOk)
  }

  // ---------------------------------------------------------------------
  // Start-up

  /** `DRV_Shutter_Init`: every slot unconfigured with its publish
      bookkeeping at the "never sent" markers. */
  function Init(relays: map<int, int>, outcomes: seq<PubResult>): (w: World)
    ensures Inv(w)
    ensures forall i :: 0 <= i < MAX_SHUTTERS ==> !IsActive(w, i)
    ensures forall i :: 0 <= i < MAX_SHUTTERS ==>
              && w.slots[i].lastSentDirection == -99 && w.slots[i].lastSentPosition == -999.0
              && w.slots[i].lastSentState == "" && w.slots[i].lastPublishTime == 0
              && !w.slots[i].needsRepublish && w.slots[i].lastReportedPosition == -1.0
    ensures w.relays == relays && w.outcomes == outcomes && w.sent == []
  {
    World(seq(MAX_SHUTTERS, _ => Unconfigured), relays, outcomes, [])
  }

  /** Until a shutter is configured every motion command is refused: with no
      configured shutter there is nothing to default to and no index names
      a configured slot. */
  lemma NothingMovesBeforeSetShutter(relays: map<int, int>, outcomes: seq<PubResult>, args: seq<Arg>, now: u32, ready: bool)
    ensures var w := Init(relays, outcomes);
            && ShutterOpen(w, args, now, ready) == Reply(w, BadArgument)
            && ShutterClose(w, args, now, ready) == Reply(w, BadArgument)
            && ShutterStop(w, args, now, ready) == Reply(w, BadArgument)
  {
    var w := Init(relays, outcomes);
    if |args| == 0 {
      assert !exists j :: OnlyActive(w, j);
    }
  }
}

=== FILE: estimator.dfy ===
/**
 * The open-loop position estimator: a motor running for `elapsed` ms moves
 * the cover by `elapsed * 100 / travelTime` percent of its range, and the
 * estimate is clamped to the physical range after every step.
 */
module Estimator {

  const FULLY_OPEN: real := 100.0
  const FULLY_CLOSED: real := 0.0

  /** The two sequential bound checks applied after every integration step. */
  function Clamp(x: real): (r: real)
    ensures FULLY_CLOSED <= r <= FULLY_OPEN
    ensures FULLY_CLOSED <= x <= FULLY_OPEN ==> r == x
    ensures x > FULLY_OPEN ==> r == FULLY_OPEN
    ensures x < FULLY_CLOSED ==> r == FULLY_CLOSED
  {
    var x1 := if x > FULLY_OPEN then FULLY_OPEN else x;
    if x1 < FULLY_CLOSED then FULLY_CLOSED else x1
  }

  /** Percentage of the full range covered in `elapsed` ms by a motor that
      crosses the whole range in `travel` ms. */
  function Travelled(elapsed: nat, travel: nat): (p: real)
    requires travel > 0
    ensures p >= 0.0
    ensures elapsed >= travel ==> p >= FULLY_OPEN
    ensures elapsed < travel ==> p < FULLY_OPEN
  {
    var e, t := elapsed as real, travel as real;
    var p := e * 100.0 / t;
    assert p * t == e * 100.0;
    assert p < 100.0 ==> p * t < 100.0 * t;
    p
  }

  /** Distance is linear in time. */
  lemma {:induction false} TravelledAdds(e1: nat, e2: nat, travel: nat)
    requires travel > 0
    ensures Travelled(e1 + e2, travel) == Travelled(e1, travel) + Travelled(e2, travel)
  {
    var t := travel as real;
    var a, b := (e1 as real) * 100.0, (e2 as real) * 100.0;
    var x, y, z := a / t, b / t, (a + b) / t;
    assert x * t == a && y * t == b && z * t == a + b;
    assert (x + y) * t == z * t;
    assert ((e1 + e2) as real) * 100.0 == a + b;
  }

  /** One integration step: the estimate moves by `dir` times the travelled
      percentage and is then clamped to [0, 100]. */
  function Advance(position: real, dir: int, elapsed: nat, travel: nat): (r: real)
    requires travel > 0
    ensures FULLY_CLOSED <= r <= FULLY_OPEN
    ensures FULLY_CLOSED <= position <= FULLY_OPEN && dir > 0 ==> position <= r
    ensures FULLY_CLOSED <= position <= FULLY_OPEN && dir < 0 ==> r <= position
    ensures FULLY_CLOSED <= position <= FULLY_OPEN && elapsed == 0 ==> r == position
    ensures FULLY_CLOSED <= position + (dir as real) * Travelled(elapsed, travel) <= FULLY_OPEN
            ==> r == position + (dir as real) * Travelled(elapsed, travel)
  {
    Clamp(position + (dir as real) * Travelled(elapsed, travel))
  }

  /** Integrating in two steps gives the same estimate as integrating once
      over the combined time: clamping never loses information while the
      motor keeps one direction. This is why each tick may integrate only
      the time since the previous tick. */
  lemma {:induction false} AdvanceComposes(position: real, dir: int, e1: nat, e2: nat, travel: nat)
    requires travel > 0
    requires dir == 1 || dir == -1
    requires FULLY_CLOSED <= position <= FULLY_OPEN
    ensures Advance(Advance(position, dir, e1, travel), dir, e2, travel) == Advance(position, dir, e1 + e2, travel)
  {
    TravelledAdds(e1, e2, travel);
  }

  /** Running for at least the full travel time drives the estimate to the
      limit in the direction of travel, wherever it started. */
  lemma FullTravelReachesLimit(position: real, dir: int, elapsed: nat, travel: nat)
    requires travel > 0
    requires FULLY_CLOSED <= position <= FULLY_OPEN
    requires elapsed >= travel
    ensures dir == 1 ==> Advance(position, dir, elapsed, travel) == FULLY_OPEN
    ensures dir == -1 ==> Advance(position, dir, elapsed, travel) == FULLY_CLOSED
  {
  }
}

=== FILE: machine.dfy ===
/**
 * The per-shutter motion state machine: relay switching, stop, set-position
 * with the interlock gate, the periodic tick, and the travel-time and
 * interlock-delay settings.
 */
module Machine {
  import opened Clock
  import opened Estimator
  import opened Shutters
  import opened Publisher

  /** Exactly the relay that drives `d` is on: the open relay for Opening,
      the close relay for Closing, neither otherwise. */
  predicate Energized(relays: map<int, int>, s: Shutter, d: Direction) {
    && Read(relays, s.channelOpen) == (if d == Opening then 1 else 0)
    && Read(relays, s.channelClose) == (if d == Closing then 1 else 0)
  }

  /** Both relays of `s` are off. */
  predicate RelaysOff(relays: map<int, int>, s: Shutter) {
    Energized(relays, s, Idle)
  }

  /** A relay of `s` physically reads as on. */
  predicate WasEnergized(relays: map<int, int>, s: Shutter) {
    Read(relays, s.channelOpen) == 1 || Read(relays, s.channelClose) == 1
  }

  /** Two `CHANNEL_Set` calls: the open channel of `s`, then its close channel. */
  function Drive(relays: map<int, int>, s: Shutter, openValue: int, closeValue: int): (r: map<int, int>)
    ensures Read(r, s.channelClose) == closeValue
    ensures s.channelOpen != s.channelClose ==> Read(r, s.channelOpen) == openValue
    ensures forall ch :: ch != s.channelOpen && ch != s.channelClose ==> Read(r, ch) == Read(relays, ch)
  {
    relays[s.channelOpen := openValue][s.channelClose := closeValue]
  }

  /** `Shutter_SetRelayChannels`: switches both relays of slot `i` and notes
      the switch time whenever a relay is switched on. */
  function SetRelayChannels(w: World, i: int, openValue: int, closeValue: int, now: u32): (w': World)
    requires Inv(w)
    ensures !IsActive(w, i) ==> w' == w
    ensures IsActive(w, i) ==>
              && Read(w'.relays, w.slots[i].channelOpen) == openValue
              && Read(w'.relays, w.slots[i].channelClose) == closeValue
              && Framed(w, w', i)
              && w'.slots[i].lastSwitchTime == (if openValue != 0 || closeValue != 0 then now else w.slots[i].lastSwitchTime)
              && w'.slots[i].(lastSwitchTime := w.slots[i].lastSwitchTime) == w.slots[i]
    ensures w'.outcomes == w.outcomes && w'.sent == w.sent
    ensures Inv(w')
  {
    if !IsActive(w, i) then w
    else
      var s := w.slots[i];
      var s' := if openValue != 0 || closeValue != 0 then s.(lastSwitchTime := now) else s;
      PutKeepsInv(w, i, s');
      Put(w.(relays := Drive(w.relays, s, openValue, closeValue)), i, s')
  }

  /** The estimate a running motor has reached by `now`. */
  function Integrated(s: Shutter, now: u32): real
    requires s.travelTime > 0
  {
    Advance(s.position, s.direction.Sign(), Elapsed(now, s.startTime), s.travelTime)
  }

  /** Where `Shutter_Internal_Stop` leaves the estimate: integrated if a
      motor was running, untouched otherwise. */
  function StoppedAt(s: Shutter, now: u32): real
    requires s.travelTime > 0
  {
    if s.direction.Moving() then Integrated(s, now) else s.position
  }

  /** `Shutter_Internal_Stop`: integrates the estimate if a motor was running
      (never during an interlock wait), switches both relays off, goes idle,
      optionally notes the switch time, and publishes. */
  function Stop(w: World, i: int, now: u32, markSwitch: bool, ready: bool): (w': World)
    requires Inv(w)
    ensures Inv(w')
    ensures !IsActive(w, i) ==> w' == w
    ensures IsActive(w, i) ==>
              var s, s' := w.slots[i], w'.slots[i];
              && Framed(w, w', i)
              && s'.direction == Idle
              && RelaysOff(w'.relays, s)
              && (s.direction.Moving() ==> s'.position == Integrated(s, now))
              && (!s.direction.Moving() ==> s'.position == s.position)
              && (s.direction == Opening ==> s.position <= s'.position)
              && (s.direction == Closing ==> s'.position <= s.position)
              && s'.startTime == s.startTime && s'.targetPosition == s.targetPosition
              && s'.targetDirection == s.targetDirection
              && s'.travelTime == s.travelTime && s'.interlockDelay == s.interlockDelay
              && s'.lastSwitchTime == (if markSwitch then now else s.lastSwitchTime)
    // and always publishes the stopped record
    ensures IsActive(w, i) ==>
              var s := w.slots[i];
              var stopped := s.(position := StoppedAt(s, now), direction := Idle,
                                lastSwitchTime := if markSwitch then now else s.lastSwitchTime);
              PublishedRound(w, w', i, stopped, now, ready)
  {
    if !IsActive(w, i) then w
    else
      // switching both relays off through `Shutter_SetRelayChannels` writes
      // the two channels and notes no switch time
      var s := w.slots[i];
      var s1 := s.(position := StoppedAt(s, now), direction := Idle,
                   lastSwitchTime := if markSwitch then now else s.lastSwitchTime);
      var w0 := w.(relays := Drive(w.relays, s, 0, 0));
      PutKeepsInv(w0, i, s1);
      var w1 := Put(w0, i, s1);
      var w2 := PublishState(w1, i, now, ready);
      FramedTrans(w, w1, w2, i);
      w2
  }

  /** The direction a request for `target` calls for, seen from the estimate
      `position`: none inside the dead band. */
  function Toward(position: real, target: real): (d: Direction)
    ensures d == Opening <==> target > position + DEAD_BAND
    ensures d == Closing <==> target < position - DEAD_BAND
    ensures d == Idle <==> position - DEAD_BAND <= target <= position + DEAD_BAND
  {
    if target > position + DEAD_BAND then Opening
    else if target < position - DEAD_BAND then Closing
    else Idle
  }

  /** Whether a move of `s` must first wait out the interlock delay. The
      firmware asks only whether a relay physically reads as on; with
      `holdWait` an interlock wait already running also keeps the gate shut. */
  predicate Gate(w: World, s: Shutter, holdWait: bool) {
    s.interlockDelay > 0 && (WasEnergized(w.relays, s) || (holdWait && s.direction == InterlockWait))
  }

  /** The dead-band branch of a set-position request: stop (noting the
      switch time), take the target as the estimate, publish. */
  function Settle(w: World, i: int, t: real, now: u32, ready: bool): (w': World)
    requires Inv(w) && IsActive(w, i)
    requires FULLY_CLOSED <= t <= FULLY_OPEN
    ensures Inv(w') && Framed(w, w', i)
    ensures var s, s' := w.slots[i], w'.slots[i];
            && s'.direction == Idle && s'.position == t && RelaysOff(w'.relays, s)
            && SameTargets(s', s) && s'.startTime == s.startTime && s'.lastSwitchTime == now
    // the stop publishes, and then the settled estimate is published again
    ensures var w1 := Stop(w, i, now, true, ready);
            PublishedRound(w1, w', i, w1.slots[i].(position := t), now, ready)
    ensures LogGrows(w, w')
    ensures !ready ==> w'.sent == w.sent && w'.outcomes == w.outcomes && w'.slots[i].needsRepublish
  {
    var w1 := Stop(w, i, now, true, ready);
    var s1 := w1.slots[i].(position := t);
    PutKeepsInv(w1, i, s1);
    var w2 := Put(w1, i, s1);
    var w3 := PublishState(w2, i, now, ready);
    FramedTrans(w, w1, w2, i);
    FramedTrans(w, w2, w3, i);
    var s := w.slots[i];
    RoundLog(w, w1, i, s.(position := StoppedAt(s, now), direction := Idle, lastSwitchTime := now), now, ready);
    RoundLog(w1, w3, i, s1, now, ready);
    LogGrowsTrans(w, w1, w3);
    w3
  }

  /** The interlock branch: after the stop, remember target and direction and
      start counting the delay from `now`; no relay is switched on. */
  function Hold(w: World, i: int, t: real, d: Direction, now: u32, ready: bool): (w': World)
    requires Inv(w) && IsActive(w, i)
    requires FULLY_CLOSED <= t <= FULLY_OPEN
    ensures Inv(w') && Framed(w, w', i)
    ensures var s' := w'.slots[i];
            && s'.direction == InterlockWait && s'.targetDirection == d
            && s'.targetPosition == t && s'.startTime == now
            && s'.position == StoppedAt(w.slots[i], now)
            && s'.travelTime == w.slots[i].travelTime && s'.interlockDelay == w.slots[i].interlockDelay
            && s'.lastSwitchTime == w.slots[i].lastSwitchTime
            && RelaysOff(w'.relays, w.slots[i])
    // the stop publishes, and then the waiting record is published
    ensures var w1 := Stop(w, i, now, false, ready);
            var waiting := w1.slots[i].(targetPosition := t, direction := InterlockWait, startTime := now, targetDirection := d);
            PublishedRound(w1, w', i, waiting, now, ready)
    ensures LogGrows(w, w')
    ensures !ready ==> w'.sent == w.sent && w'.outcomes == w.outcomes && w'.slots[i].needsRepublish
  {
    var w1 := Stop(w, i, now, false, ready);
    var s2 := w1.slots[i].(targetPosition := t, direction := InterlockWait, startTime := now, targetDirection := d);
    PutKeepsInv(w1, i, s2);
    var w2 := Put(w1, i, s2);
    var w3 := PublishState(w2, i, now, ready);
    FramedTrans(w, w1, w2, i);
    FramedTrans(w, w2, w3, i);
    var s := w.slots[i];
    RoundLog(w, w1, i, s.(position := StoppedAt(s, now), direction := Idle), now, ready);
    RoundLog(w1, w3, i, s2, now, ready);
    LogGrowsTrans(w, w1, w3);
    w3
  }

  /** The immediate branch: after the stop, start the motor of `d` at once. */
  function Start(w: World, i: int, t: real, d: Direction, now: u32, ready: bool): (w': World)
    requires Inv(w) && IsActive(w, i)
    requires FULLY_CLOSED <= t <= FULLY_OPEN
    requires d.Moving()
    ensures Inv(w') && Framed(w, w', i)
    ensures var s' := w'.slots[i];
            && s'.direction == d && s'.targetPosition == t && s'.startTime == now
            && s'.position == StoppedAt(w.slots[i], now)
            && s'.travelTime == w.slots[i].travelTime && s'.interlockDelay == w.slots[i].interlockDelay
            && s'.targetDirection == w.slots[i].targetDirection && s'.lastSwitchTime == now
            && Energized(w'.relays, w.slots[i], d)
    // the stop publishes, and then the running record is published
    ensures var w1 := Stop(w, i, now, false, ready);
            var running := w1.slots[i].(targetPosition := t, direction := d, startTime := now, lastSwitchTime := now);
            PublishedRound(w1, w', i, running, now, ready)
    ensures LogGrows(w, w')
    ensures !ready ==> w'.sent == w.sent && w'.outcomes == w.outcomes && w'.slots[i].needsRepublish
  {
    var w1 := Stop(w, i, now, false, ready);
    var s2 := w1.slots[i].(targetPosition := t, direction := d, startTime := now);
    PutKeepsInv(w1, i, s2);
    var w2 := Put(w1, i, s2);
    var w3 := if d == Opening then SetRelayChannels(w2, i, 1, 0, now) else SetRelayChannels(w2, i, 0, 1, now);
    var w4 := PublishState(w3, i, now, ready);
    FramedTrans(w, w1, w2, i);
    FramedTrans(w, w2, w3, i);
    FramedTrans(w, w3, w4, i);
    var s := w.slots[i];
    RoundLog(w, w1, i, s.(position := StoppedAt(s, now), direction := Idle), now, ready);
    RoundLog(w1, w4, i, s2.(lastSwitchTime := now), now, ready);
    LogGrowsTrans(w, w1, w4);
    w4
  }

  /** `Shutter_DoSetPosition` with a choice of interlock gate. The target is
      clamped; inside the dead band the shutter stops and takes the target as
      its estimate; otherwise it stops, and then either waits out the
      interlock delay or switches on the relay of the new direction. The
      direction is judged from the estimate before the stop, and the relays
      are read before the stop too. */
  function MoveTo(w: World, i: int, target: real, now: u32, ready: bool, holdWait: bool): (w': World)
    requires Inv(w)
    ensures Inv(w')
    ensures !IsActive(w, i) ==> w' == w
    ensures IsActive(w, i) ==>
              var s, s', t := w.slots[i], w'.slots[i], Clamp(target);
              var d := Toward(s.position, t);
              && Framed(w, w', i)
              && (d == Idle ==>
                    && s'.direction == Idle && s'.position == t && RelaysOff(w'.relays, s)
                    && SameTargets(s', s) && s'.startTime == s.startTime && s'.lastSwitchTime == now)
              && (d != Idle ==>
                    && s'.targetPosition == t && s'.startTime == now && s'.position == StoppedAt(s, now)
                    && s'.travelTime == s.travelTime && s'.interlockDelay == s.interlockDelay)
              && (d != Idle && Gate(w, s, holdWait) ==>
                    && s'.direction == InterlockWait && s'.targetDirection == d && RelaysOff(w'.relays, s)
                    && s'.lastSwitchTime == s.lastSwitchTime)
              && (d != Idle && !Gate(w, s, holdWait) ==>
                    && s'.direction == d && Energized(w'.relays, s, d)
                    && s'.targetDirection == s.targetDirection && s'.lastSwitchTime == now)
    // every branch publishes; with the transport down nothing is sent and
    // the publish stays pending
    ensures IsActive(w, i) ==> LogGrows(w, w')
    ensures IsActive(w, i) && !ready ==>
              w'.sent == w.sent && w'.outcomes == w.outcomes && w'.slots[i].needsRepublish
  {
    if !IsActive(w, i) then w
    else
      var t := Clamp(target);
      var s := w.slots[i];
      var d := Toward(s.position, t);
      if d == Idle then Settle(w, i, t, now, ready)
      else if Gate(w, s, holdWait) then Hold(w, i, t, d, now, ready)
      else Start(w, i, t, d, now, ready)
  }

  /** `Shutter_DoSetPosition` as the firmware writes it: the gate looks only
      at the relays. Every command that moves a shutter calls this one. */
  function SetPosition(w: World, i: int, target: real, now: u32, ready: bool): (w': World)
    requires Inv(w)
    ensures Inv(w')
    // a request during an interlock wait finds both relays off and starts
    // the motor at once, however little of the delay has passed
    ensures IsActive(w, i) && w.slots[i].direction == InterlockWait && RelaysOff(w.relays, w.slots[i]) ==>
              var d := Toward(w.slots[i].position, Clamp(target));
              d != Idle ==> w'.slots[i].direction == d && Energized(w'.relays, w.slots[i], d)
  {
    MoveTo(w, i, target, now, ready, false)
  }

  /** `Shutter_DoSetPosition` with the interlock gate also held shut by a
      wait already in progress: the correction of the relay-only gate. */
  function SetPositionCorrected(w: World, i: int, target: real, now: u32, ready: bool): (w': World)
    requires Inv(w)
    ensures Inv(w')
    // outside an interlock wait the correction changes nothing
    ensures !IsActive(w, i) || w.slots[i].direction != InterlockWait ==>
              w' == SetPosition(w, i, target, now, ready)
    // during a wait no relay is switched on: the shutter waits again or settles
    ensures IsActive(w, i) && w.slots[i].direction == InterlockWait && w.slots[i].interlockDelay > 0 ==>
              && RelaysOff(w'.relays, w.slots[i])
              && (w'.slots[i].direction == InterlockWait || w'.slots[i].direction == Idle)
  {
    MoveTo(w, i, target, now, ready, true)
  }

  /** The position a running shutter stops at when the estimate `moved` has
      reached a limit or crossed `target` in the direction of travel. */
  function Arrival(d: Direction, moved: real, target: real): Option<real> {
    if d == Opening && moved >= FULLY_OPEN then Some(FULLY_OPEN)
    else if d == Closing && moved <= FULLY_CLOSED then Some(FULLY_CLOSED)
    else if d == Opening && moved >= target then Some(target)
    else if d == Closing && moved <= target then Some(target)
    else None
  }

  /** The progress report at the end of a tick: publish when the estimate moved
      at least the report threshold since the last report, or, as a heartbeat,
      when a running shutter's estimate equals the last reported one. */
  function ReportProgress(w: World, i: int, now: u32, ready: bool): (w': World)
    requires Inv(w) && IsActive(w, i)
    ensures Inv(w')
    ensures Framed(w, w', i) && w'.relays == w.relays
    ensures SameMotion(w'.slots[i], w.slots[i])
  {
    var s := w.slots[i];
    var gap := s.position - s.lastReportedPosition;
    if (if gap < 0.0 then -gap else gap) >= REPORT_THRESHOLD
       || (s.direction != Idle && s.lastReportedPosition == s.position) then
      var w1 := PublishState(w, i, now, ready);
      var s1 := w1.slots[i].(lastReportedPosition := w1.slots[i].position);
      PutKeepsInv(w1, i, s1);
      Put(w1, i, s1)
    else
      w
  }

  /** When the end-of-tick report fires, and what it does: it fires when the
      estimate moved at least the threshold since the last report, or when a
      running shutter's estimate equals the last reported one; it then runs
      the throttler and records the estimate as reported, even when the
      throttler was rate limited. Otherwise nothing happens. */
  lemma ReportProgressFires(w: World, i: int, now: u32, ready: bool)
    requires Inv(w) && IsActive(w, i)
    ensures var s, w' := w.slots[i], ReportProgress(w, i, now, ready);
            var gap := s.position - s.lastReportedPosition;
            var fires := (if gap < 0.0 then -gap else gap) >= REPORT_THRESHOLD
                         || (s.direction != Idle && s.lastReportedPosition == s.position);
            && (!fires ==> w' == w)
            && (fires ==>
                  var r := Throttle(s, now, ready, w.outcomes);
                  && w'.slots[i].lastReportedPosition == s.position
                  && w'.sent == w.sent + r.attempts
                  && w'.outcomes == Drop(w.outcomes, |r.attempts|)
                  && w'.slots[i].(lastReportedPosition := r.slot.lastReportedPosition) == r.slot)
  {
  }

  /** A tick of a shutter in interlock wait whose delay has run out: the
      remembered direction takes over and its relay is switched on. */
  function Release(w: World, i: int, now: u32, ready: bool): (w': World)
    requires Inv(w) && IsActive(w, i)
    requires w.slots[i].direction == InterlockWait
    ensures Inv(w') && Framed(w, w', i) && SameTargets(w'.slots[i], w.slots[i])
    ensures var s, s' := w.slots[i], w'.slots[i];
            && s'.direction == s.targetDirection && s'.startTime == now && s'.position == s.position
            && s'.lastSwitchTime == s.lastSwitchTime
            && (s.targetDirection.Moving() ==> Energized(w'.relays, s, s.targetDirection))
            && (!s.targetDirection.Moving() ==> w'.relays == w.relays)
            // and publishes the released record
            && PublishedRound(w, w', i, s.(direction := s.targetDirection, startTime := now), now, ready)
  {
    var s := w.slots[i];
    var s1 := s.(direction := s.targetDirection, startTime := now);
    var relays :=
      if s1.direction == Opening then Drive(w.relays, s, 1, 0)
      else if s1.direction == Closing then Drive(w.relays, s, 0, 1)
      else w.relays;
    PutKeepsInv(w.(relays := relays), i, s1);
    var w1 := Put(w.(relays := relays), i, s1);
    var w2 := PublishState(w1, i, now, ready);
    FramedTrans(w, w1, w2, i);
    w2
  }

  /** Whether a running shutter whose estimate reached `moved` stops: once
      it has met or crossed its target in the direction of travel (a limit
      lies beyond every target). */
  predicate Reached(s: Shutter, moved: real) {
    if s.direction == Opening then moved >= s.targetPosition else moved <= s.targetPosition
  }

  /** The integration step of a tick of a running shutter, with the stop at
      a limit or at the target (relays off, idle, publish). */
  function Advanced(w: World, i: int, now: u32, ready: bool): (w': World)
    requires Inv(w) && IsActive(w, i)
    requires w.slots[i].direction.Moving()
    ensures Inv(w') && Framed(w, w', i) && SameTargets(w'.slots[i], w.slots[i])
    ensures var s, s' := w.slots[i], w'.slots[i];
            var moved := Integrated(s, now);
            var arrived := Reached(s, moved);
            && s'.startTime == now && s'.lastSwitchTime == s.lastSwitchTime
            && (arrived ==>
                  && s'.direction == Idle && RelaysOff(w'.relays, s)
                  && s'.position == (if moved == FULLY_OPEN || moved == FULLY_CLOSED then moved else s.targetPosition)
                  // the stop publishes the parked record
                  && PublishedRound(w, w', i, s.(position := s'.position, startTime := now, direction := Idle), now, ready))
            && (!arrived ==>
                  && s'.direction == s.direction && s'.position == moved && w'.relays == w.relays
                  // a tick that runs on publishes nothing here
                  && w'.slots[i] == s.(position := moved, startTime := now)
                  && w'.sent == w.sent && w'.outcomes == w.outcomes)
  {
    var s := w.slots[i];
    var moved := Integrated(s, now);
    var stop := Arrival(s.direction, moved, s.targetPosition);
    var s1 := s.(position := if stop.Some? then stop.value else moved, startTime := now);
    PutKeepsInv(w, i, s1);
    var w1 := Put(w, i, s1);
    if stop.Some? then
      var s2 := s1.(direction := Idle);
      PutKeepsInv(w1.(relays := Drive(w1.relays, s1, 0, 0)), i, s2);
      var w2 := Put(w1.(relays := Drive(w1.relays, s1, 0, 0)), i, s2);
      var w3 := PublishState(w2, i, now, ready);
      FramedTrans(w, w2, w3, i);
      w3
    else
      w1
  }

  /** One tick of slot `i` (the body of the loop in `Shutter_OnEverySecond`). */
  function TickSlot(w: World, i: int, now: u32, ready: bool): (w': World)
    requires Inv(w)
    ensures Inv(w')
    ensures !IsActive(w, i) ==> w' == w
    ensures IsActive(w, i) ==> Framed(w, w', i) && SameTargets(w'.slots[i], w.slots[i])
    // an idle shutter, or one still in its interlock wait, is left alone
    ensures IsActive(w, i) && w.slots[i].direction == Idle ==> w' == w
    ensures (IsActive(w, i) && w.slots[i].direction == InterlockWait &&
             Elapsed(now, w.slots[i].startTime) < w.slots[i].interlockDelay) ==> w' == w
    // release of the interlock: the remembered direction starts
    ensures (IsActive(w, i) && w.slots[i].direction == InterlockWait &&
             Elapsed(now, w.slots[i].startTime) >= w.slots[i].interlockDelay) ==>
              var s, s' := w.slots[i], w'.slots[i];
              && s'.direction == s.targetDirection && s'.startTime == now && s'.position == s.position
              && (s.targetDirection.Moving() ==> Energized(w'.relays, s, s.targetDirection))
    // a running shutter integrates the time since the last tick
    ensures IsActive(w, i) && w.slots[i].direction.Moving() ==>
              var s, s' := w.slots[i], w'.slots[i];
              var moved := Integrated(s, now);
              var arrived := Reached(s, moved);
              && s'.startTime == now
              && (arrived ==>
                    && s'.direction == Idle && RelaysOff(w'.relays, s)
                    && s'.position == (if moved == FULLY_OPEN || moved == FULLY_CLOSED then moved else s.targetPosition))
              && (!arrived ==>
                    s'.direction == s.direction && s'.position == moved && w'.relays == w.relays)
  {
    if !IsActive(w, i) then w
    else
      var s := w.slots[i];
      if s.direction == InterlockWait then
        if Elapsed(now, s.startTime) >= s.interlockDelay then Release(w, i, now, ready) else w
      else if s.direction.Moving() then
        var w1 := Advanced(w, i, now, ready);
        var w2 := ReportProgress(w1, i, now, ready);
        FramedTrans(w, w1, w2, i);
        w2
      else
        w
  }

  /** A tick never notes a switch time, not even when it switches a relay
      on; and a released wait with no remembered direction switches nothing. */
  lemma TickKeepsSwitchTime(w: World, i: int, now: u32, ready: bool)
    requires Inv(w) && IsActive(w, i)
    ensures TickSlot(w, i, now, ready).slots[i].lastSwitchTime == w.slots[i].lastSwitchTime
    ensures var s := w.slots[i];
            s.direction == InterlockWait && !s.targetDirection.Moving() ==>
              TickSlot(w, i, now, ready).relays == w.relays
  {
    var s := w.slots[i];
    if s.direction.Moving() {
      var w1 := Advanced(w, i, now, ready);
      assert ReportProgress(w1, i, now, ready).slots[i].lastSwitchTime == w1.slots[i].lastSwitchTime;
    }
  }

  /** The progress report only appends to the log; with the transport down
      it sends nothing and a pending publish stays pending. */
  lemma ReportLog(w: World, i: int, now: u32, ready: bool)
    requires Inv(w) && IsActive(w, i)
    ensures var w' := ReportProgress(w, i, now, ready);
            && LogGrows(w, w')
            && (!ready ==> w'.sent == w.sent && w'.outcomes == w.outcomes)
            && (!ready && w.slots[i].needsRepublish ==> w'.slots[i].needsRepublish)
  {
    var w' := ReportProgress(w, i, now, ready);
    ReportProgressFires(w, i, now, ready);
    assert w'.sent[..|w.sent|] == w.sent;
  }

  /** The publish of the integration step of a running shutter: a stop
      publishes the parked record; running on publishes nothing. */
  lemma AdvancedLog(w: World, i: int, now: u32, ready: bool)
    requires Inv(w) && IsActive(w, i) && w.slots[i].direction.Moving()
    ensures var w1 := Advanced(w, i, now, ready);
            && LogGrows(w, w1)
            && (!ready ==> w1.sent == w.sent && w1.outcomes == w.outcomes)
            && (!ready && w1.slots[i].direction != w.slots[i].direction ==> w1.slots[i].needsRepublish)
  {
    var s := w.slots[i];
    var w1 := Advanced(w, i, now, ready);
    if Reached(s, Integrated(s, now)) {
      RoundLog(w, w1, i, s.(position := w1.slots[i].position, startTime := now, direction := Idle), now, ready);
    }
  }

  /** The publishes of a tick of a running shutter: the stop's round if it
      arrived, then the progress report's; the log only grows, and with the
      transport down nothing is sent and a stop leaves its publish pending. */
  lemma RunPublishes(w: World, i: int, now: u32, ready: bool)
    requires Inv(w) && IsActive(w, i) && w.slots[i].direction.Moving()
    ensures var w2 := ReportProgress(Advanced(w, i, now, ready), i, now, ready);
            && LogGrows(w, w2)
            && (!ready ==> w2.sent == w.sent && w2.outcomes == w.outcomes)
            && (!ready && w2.slots[i].direction != w.slots[i].direction ==> w2.slots[i].needsRepublish)
  {
    var w1 := Advanced(w, i, now, ready);
    AdvancedLog(w, i, now, ready);
    ReportLog(w1, i, now, ready);
    LogGrowsTrans(w, w1, ReportProgress(w1, i, now, ready));
  }

  /** What a tick publishes: a released wait publishes the released record;
      every tick only appends to the call log; with the transport down
      nothing is sent, no answer is consumed, and a shutter whose direction
      changed is left with its publish pending. */
  lemma TickPublishes(w: World, i: int, now: u32, ready: bool)
    requires Inv(w) && 0 <= i < MAX_SHUTTERS
    ensures var w', s := TickSlot(w, i, now, ready), w.slots[i];
            && LogGrows(w, w')
            && (!ready ==> w'.sent == w.sent && w'.outcomes == w.outcomes)
            && (IsActive(w, i) && !ready && w'.slots[i].direction != s.direction ==> w'.slots[i].needsRepublish)
            && (IsActive(w, i) && s.direction == InterlockWait && Elapsed(now, s.startTime) >= s.interlockDelay ==>
                  PublishedRound(w, w', i, s.(direction := s.targetDirection, startTime := now), now, ready))
  {
    var s := w.slots[i];
    if !IsActive(w, i) || s.direction == Idle {
      assert TickSlot(w, i, now, ready) == w;
    } else if s.direction == InterlockWait {
      if Elapsed(now, s.startTime) >= s.interlockDelay {
        RoundLog(w, Release(w, i, now, ready), i, s.(direction := s.targetDirection, startTime := now), now, ready);
      }
    } else {
      RunPublishes(w, i, now, ready);
    }
  }

  /** `Shutter_SetInterlockDelay`: any `uint32_t` value is accepted, 0
      switching the gate off; the new setting is published. */
  function SetInterlockDelay(w: World, i: int, delay: u32, now: u32, ready: bool): (w': World)
    requires Inv(w)
    ensures Inv(w')
    ensures !IsActive(w, i) ==> w' == w
    ensures IsActive(w, i) ==>
              && Framed(w, w', i) && w'.relays == w.relays
              && w'.slots[i].interlockDelay == delay
              && SameMotion(w'.slots[i], w.slots[i].(interlockDelay := delay))
              && PublishedRound(w, w', i, w.slots[i].(interlockDelay := delay), now, ready)
  {
    if !IsActive(w, i) then w
    else
      var s1 := w.slots[i].(interlockDelay := delay);
      PutKeepsInv(w, i, s1);
      var w1 := Put(w, i, s1);
      var w2 := PublishState(w1, i, now, ready);
      FramedTrans(w, w1, w2, i);
      w2
  }

  /** `Shutter_SetTravelTime`: a travel time below the minimum is refused and
      leaves everything as it was; an accepted one is published. */
  function SetTravelTime(w: World, i: int, travel: u32, now: u32, ready: bool): (w': World)
    requires Inv(w)
    ensures Inv(w')
    ensures !IsActive(w, i) || travel < MIN_TRAVEL_TIME ==> w' == w
    ensures IsActive(w, i) && travel >= MIN_TRAVEL_TIME ==>
              && Framed(w, w', i) && w'.relays == w.relays
              && w'.slots[i].travelTime == travel
              && SameMotion(w'.slots[i], w.slots[i].(travelTime := travel))
              && PublishedRound(w, w', i, w.slots[i].(travelTime := travel), now, ready)
  {
    if !IsActive(w, i) then w
    else if travel < MIN_TRAVEL_TIME then w
    else
      var s1 := w.slots[i].(travelTime := travel);
      PutKeepsInv(w, i, s1);
      var w1 := Put(w, i, s1);
      var w2 := PublishState(w1, i, now, ready);
      FramedTrans(w, w1, w2, i);
      w2
  }

  /** `w'` agrees with `w` on the relays of slot `s`. */
  predicate SameRelays(w: World, w': World, s: Shutter) {
    && Read(w'.relays, s.channelOpen) == Read(w.relays, s.channelOpen)
    && Read(w'.relays, s.channelClose) == Read(w.relays, s.channelClose)
  }

  /** Slot `j` of `w'` has the motion and relays that ticking slot `j` of
      `w` alone gives. Its publish bookkeeping may differ only through the
      transport's answers, which other slots' publishes consumed first: with
      the transport down the slot is exactly the lone tick's. */
  ghost predicate TickedAsAlone(w: World, w': World, j: int, now: u32, ready: bool)
    requires Inv(w) && 0 <= j < MAX_SHUTTERS
  {
    var t := TickSlot(w, j, now, ready);
    && SameMotion(w'.slots[j], t.slots[j]) && SameRelays(t, w', w.slots[j])
    && (!ready ==> w'.slots[j] == t.slots[j])
  }

  /** The motion a tick gives slot `i`, and the values it leaves on the
      slot's relays, depend only on the slot and on those relays: not on the
      other slots, the other channels or the transport. */
  lemma TickSlotLocal(a: World, b: World, i: int, now: u32, ready: bool)
    requires Inv(a) && Inv(b) && 0 <= i < MAX_SHUTTERS
    requires a.slots[i] == b.slots[i] && SameRelays(a, b, a.slots[i])
    ensures SameMotion(TickSlot(b, i, now, ready).slots[i], TickSlot(a, i, now, ready).slots[i])
    ensures SameRelays(TickSlot(a, i, now, ready), TickSlot(b, i, now, ready), a.slots[i])
  {
    var s := a.slots[i];
    if !IsActive(a, i) || s.direction == Idle {
    } else if s.direction == InterlockWait {
      if Elapsed(now, s.startTime) >= s.interlockDelay {
        ReleaseLocal(a, b, i, now, ready);
      }
    } else {
      var a1, b1 := Advanced(a, i, now, ready), Advanced(b, i, now, ready);
      AdvancedLocal(a, b, i, now, ready);
      assert TickSlot(a, i, now, ready) == ReportProgress(a1, i, now, ready);
      assert TickSlot(b, i, now, ready) == ReportProgress(b1, i, now, ready);
    }
  }

  /** `TickSlotLocal` for a released wait. */
  lemma ReleaseLocal(a: World, b: World, i: int, now: u32, ready: bool)
    requires Inv(a) && Inv(b) && IsActive(a, i) && a.slots[i].direction == InterlockWait
    requires a.slots[i] == b.slots[i] && SameRelays(a, b, a.slots[i])
    ensures SameMotion(Release(b, i, now, ready).slots[i], Release(a, i, now, ready).slots[i])
    ensures SameRelays(Release(a, i, now, ready), Release(b, i, now, ready), a.slots[i])
  {
  }

  /** `TickSlotLocal` for the integration step of a running shutter. */
  lemma AdvancedLocal(a: World, b: World, i: int, now: u32, ready: bool)
    requires Inv(a) && Inv(b) && IsActive(a, i) && a.slots[i].direction.Moving()
    requires a.slots[i] == b.slots[i] && SameRelays(a, b, a.slots[i])
    ensures SameMotion(Advanced(b, i, now, ready).slots[i], Advanced(a, i, now, ready).slots[i])
    ensures SameRelays(Advanced(a, i, now, ready), Advanced(b, i, now, ready), a.slots[i])
  {
  }

  /** With the transport down, a publish does not depend on the transport's
      answers; so the slot a tick leaves depends only on the slot and its
      relays. */
  lemma TickSlotLocalUnready(a: World, b: World, i: int, now: u32)
    requires Inv(a) && Inv(b) && 0 <= i < MAX_SHUTTERS
    requires a.slots[i] == b.slots[i] && SameRelays(a, b, a.slots[i])
    ensures TickSlot(a, i, now, false).slots[i] == TickSlot(b, i, now, false).slots[i]
  {
    var s := a.slots[i];
    if !IsActive(a, i) || s.direction == Idle {
    } else if s.direction == InterlockWait {
    } else {
      var a1, b1 := Advanced(a, i, now, false), Advanced(b, i, now, false);
      assert a1.slots[i] == b1.slots[i];
      ReportProgressFires(a1, i, now, false);
      ReportProgressFires(b1, i, now, false);
    }
  }

  /** Slot `j` keeps what its own tick gave it while other slots tick. */
  lemma TickedAsAloneKept(w: World, w1: World, w2: World, j: int, now: u32, ready: bool)
    requires Inv(w) && 0 <= j < MAX_SHUTTERS
    requires TickedAsAlone(w, w1, j, now, ready)
    requires w2.slots[j] == w1.slots[j] && SameRelays(w1, w2, w.slots[j])
    ensures TickedAsAlone(w, w2, j, now, ready)
  {
  }

  /** A tick of slot `i` leaves every other slot, and the relays of every
      other configured slot, as they were. */
  lemma TickLeavesOthers(w: World, i: int, now: u32, ready: bool)
    requires Inv(w) && 0 <= i < MAX_SHUTTERS
    ensures forall j :: 0 <= j < MAX_SHUTTERS && j != i ==> TickSlot(w, i, now, ready).slots[j] == w.slots[j]
    ensures forall j :: 0 <= j < MAX_SHUTTERS && j != i && w.slots[j].active ==>
              SameRelays(w, TickSlot(w, i, now, ready), w.slots[j])
  {
    if IsActive(w, i) {
      forall j | 0 <= j < MAX_SHUTTERS && j != i && w.slots[j].active
        ensures Disjoint(w.slots[i], w.slots[j])
      {
      }
    }
  }

  /** What holds once the slots below `k` have been ticked and the rest
      not yet: ticked slots moved as a tick of that slot alone, untouched
      slots kept, configuration everywhere kept. */
  ghost predicate Swept(w: World, w': World, k: int, now: u32, ready: bool)
    requires Inv(w) && 0 <= k <= MAX_SHUTTERS
  {
    && Inv(w')
    && (forall j :: 0 <= j < MAX_SHUTTERS ==> SameConfig(w'.slots[j], w.slots[j]))
    && (forall j :: k <= j < MAX_SHUTTERS ==> w'.slots[j] == w.slots[j])
    && (forall j :: k <= j < MAX_SHUTTERS && w.slots[j].active ==> SameRelays(w, w', w.slots[j]))
    && (forall j :: 0 <= j < k && IsActive(w, j) ==> TickedAsAlone(w, w', j, now, ready))
    && (forall j :: 0 <= j < k && (!w.slots[j].active || w.slots[j].direction == Idle) ==>
          w'.slots[j] == w.slots[j])
    && (forall j :: IsActive(w, j) && w.slots[j].direction == Idle ==> SameRelays(w, w', w.slots[j]))
  }

  /** Ticking slot `k` extends the sweep by one slot. */
  lemma SweepStep(w: World, w': World, k: int, now: u32, ready: bool)
    requires Inv(w) && 0 <= k < MAX_SHUTTERS && Swept(w, w', k, now, ready)
    ensures Swept(w, TickSlot(w', k, now, ready), k + 1, now, ready)
  {
    var w2 := TickSlot(w', k, now, ready);
    TickLeavesOthers(w', k, now, ready);
    if IsActive(w', k) {
      TickSlotLocal(w, w', k, now, ready);
      if !ready {
        TickSlotLocalUnready(w, w', k, now);
      }
    }
    forall j | 0 <= j < k && IsActive(w, j)
      ensures TickedAsAlone(w, w2, j, now, ready)
    {
      TickedAsAloneKept(w, w', w2, j, now, ready);
    }
  }

  /** `Shutter_OnEverySecond`: one tick of every slot, in index order, all
      at the same time reading `now`. Each configured shutter moves, and its
      relays switch, exactly as a tick of that shutter alone would have it;
      unconfigured and idle shutters are not touched. */
  method OnEverySecond(w: World, now: u32, ready: bool) returns (w': World)
    requires Inv(w)
    ensures Inv(w')
    ensures forall j :: 0 <= j < MAX_SHUTTERS ==> SameConfig(w'.slots[j], w.slots[j])
    ensures forall j :: IsActive(w, j) ==> TickedAsAlone(w, w', j, now, ready)
    ensures forall j :: 0 <= j < MAX_SHUTTERS && (!w.slots[j].active || w.slots[j].direction == Idle) ==>
              w'.slots[j] == w.slots[j]
    ensures forall j :: IsActive(w, j) && w.slots[j].direction == Idle ==> SameRelays(w, w', w.slots[j])
    // the publishes only append to the log; with the transport down there are none
    ensures LogGrows(w, w')
    ensures !ready ==> w'.sent == w.sent && w'.outcomes == w.outcomes
  {
    w' := w;
    for i := 0 to MAX_SHUTTERS
      invariant Swept(w, w', i, now, ready)
      invariant LogGrows(w, w')
      invariant !ready ==> w'.sent == w.sent && w'.outcomes == w.outcomes
    {
      SweepStep(w, w', i, now, ready);
      TickPublishes(w', i, now, ready);
      LogGrowsTrans(w, w', TickSlot(w', i, now, ready));
      w' := TickSlot(w', i, now, ready);
    }
  }
}

=== FILE: motion_lemmas.dfy ===
/**
 * Properties of the motion state machine that relate several calls: stop
 * idempotence, tick-by-tick integration, convergence to the target, slot
 * isolation, and the scenarios of the interlock gate.
 */
module MotionLemmas {
  import opened Clock
  import opened Estimator
  import opened Shutters
  import opened Publisher
  import opened Machine

  /** A change confined to slot `i` leaves every other configured shutter,
      and the relays it owns, exactly as they were. */
  lemma OtherShuttersUndisturbed(w: World, w': World, i: int, j: int)
    requires Inv(w) && IsActive(w, i) && IsActive(w, j) && i != j
    requires Framed(w, w', i)
    ensures w'.slots[j] == w.slots[j]
    ensures Read(w'.relays, w.slots[j].channelOpen) == Read(w.relays, w.slots[j].channelOpen)
    ensures Read(w'.relays, w.slots[j].channelClose) == Read(w.relays, w.slots[j].channelClose)
  {
    assert Disjoint(w.slots[i], w.slots[j]);
  }

  /** A second stop finds the shutter idle: it keeps the estimate, writes
      the same (off) values to the relays, and makes exactly one further
      throttler round on the idle record (with the transport down: no call,
      the publish left pending). */
  lemma StopIsIdempotent(w: World, i: int, t1: u32, t2: u32, m1: bool, m2: bool, r1: bool, r2: bool)
    requires Inv(w) && IsActive(w, i)
    ensures var w1 := Stop(w, i, t1, m1, r1);
            var w2 := Stop(w1, i, t2, m2, r2);
            && w2.slots[i].position == w1.slots[i].position
            && w2.slots[i].direction == Idle
            && (forall ch :: Read(w2.relays, ch) == Read(w1.relays, ch))
            && PublishedRound(w1, w2, i, w1.slots[i].(lastSwitchTime := if m2 then t2 else w1.slots[i].lastSwitchTime), t2, r2)
            && (!r2 ==> w2.sent == w1.sent && w2.outcomes == w1.outcomes && w2.slots[i].needsRepublish)
  {
    var w1 := Stop(w, i, t1, m1, r1);
    var w2 := Stop(w1, i, t2, m2, r2);
    forall ch
      ensures Read(w2.relays, ch) == Read(w1.relays, ch)
    {
      if ch == w.slots[i].channelOpen || ch == w.slots[i].channelClose {
        assert RelaysOff(w1.relays, w.slots[i]);
        assert RelaysOff(w2.relays, w1.slots[i]);
      }
    }
    var s1 := w1.slots[i];
    assert s1.(position := StoppedAt(s1, t2), direction := Idle) == s1;
    RoundLog(w1, w2, i, s1.(lastSwitchTime := if m2 then t2 else s1.lastSwitchTime), t2, r2);
  }

  /** Ticks integrate only the time since the previous tick: two ticks that
      do not reach the target leave the same estimate as a single tick at the
      later time would (no double counting). */
  lemma {:induction false} TicksIntegrateSinceLastTick(w: World, i: int, t1: u32, t2: u32, ready1: bool, ready2: bool)
    requires Inv(w) && IsActive(w, i) && w.slots[i].direction.Moving()
    requires w.slots[i].startTime <= t1 <= t2
    requires !Reached(w.slots[i], Integrated(w.slots[i], t2))
    ensures var w2 := TickSlot(TickSlot(w, i, t1, ready1), i, t2, ready2);
            && w2.slots[i].position == Integrated(w.slots[i], t2)
            && w2.slots[i].direction == w.slots[i].direction
            && w2.slots[i].startTime == t2
  {
    var s := w.slots[i];
    var sign, travel := s.direction.Sign(), s.travelTime;
    var e1, e2 := Elapsed(t1, s.startTime), Elapsed(t2, t1);
    ElapsedAdds(s.startTime, t1, t2);
    AdvanceComposes(s.position, sign, e1, e2, travel);
    var moved1 := Integrated(s, t1);
    assert !Reached(s, moved1) by {
      assert Advance(moved1, sign, e2, travel) == Integrated(s, t2);
    }
    var w1 := TickSlot(w, i, t1, ready1);
    assert w1.slots[i].position == moved1;
    assert Integrated(w1.slots[i], t2) == Integrated(s, t2);
  }

  /** The time `n` ticks `period` ms apart take. */
  function Span(period: nat, n: nat): nat {
    if n == 0 then 0 else Span(period, n - 1) + period
  }

  lemma {:induction false} SpanIsProduct(period: nat, n: nat)
    ensures Span(period, n) == n * period
  {
    if n > 0 {
      SpanIsProduct(period, n - 1);
    }
  }

  /** The clock reading of the `n`-th tick. */
  function TickAt(start: u32, period: nat, n: nat): int {
    start + Span(period, n)
  }

  /** `n` ticks of slot `i`, `period` ms apart, the first at `start + period`. */
  function Ticks(w: World, i: int, start: u32, period: nat, n: nat, ready: bool): (w': World)
    requires Inv(w)
    requires start + Span(period, n) < WRAP
    ensures Inv(w')
    ensures 0 <= i < MAX_SHUTTERS ==> Framed(w, w', i)
    decreases n
  {
    if n == 0 then w
    else
      var w1 := Ticks(w, i, start, period, n - 1, ready);
      var w2 := TickSlot(w1, i, TickAt(start, period, n), ready);
      if 0 <= i < MAX_SHUTTERS then
        assert Framed(w1, w2, i) by {
          if !IsActive(w1, i) {
            assert w2 == w1;
          }
        }
        FramedTrans(w, w1, w2, i);
        w2
      else
        w2
  }

  /** The limit a motor running in direction `d` runs into. */
  function EndOfTravel(d: Direction): real {
    if d == Opening then FULLY_OPEN else FULLY_CLOSED
  }

  /** Still running `e` ms after `start`, on the estimate integrated over
      those `e` ms, and (once some time has been integrated) short of its
      target. */
  ghost predicate Running(s0: Shutter, s: Shutter, e: nat, start: int)
    requires s0.travelTime > 0
  {
    && s.direction == s0.direction
    && s.position == Advance(s0.position, s0.direction.Sign(), e, s0.travelTime)
    && s.startTime == start + e
    && (e > 0 ==> !Reached(s0, s.position))
  }

  /** Stopped with both relays off, at the target or at the end of travel. */
  ghost predicate Parked(s0: Shutter, w: World, i: int)
    requires 0 <= i < MAX_SHUTTERS
  {
    var s := w.slots[i];
    && s.direction == Idle
    && RelaysOff(w.relays, s0)
    && (s.position == s0.targetPosition || s.position == EndOfTravel(s0.direction))
  }

  /** Where a shutter that started running at `start` (as `s0`) stands after
      ticks up to `start + e`: still running, or parked. */
  ghost predicate Progress(s0: Shutter, w: World, i: int, e: nat, start: int)
    requires 0 <= i < MAX_SHUTTERS && s0.travelTime > 0
  {
    var s := w.slots[i];
    && SameConfig(s, s0) && SameTargets(s, s0)
    && (Running(s0, s, e, start) || Parked(s0, w, i))
  }

  /** The estimate a running shutter integrates at its next tick is the one
      integrated over the whole time since the start. */
  lemma IntegratedAfter(s0: Shutter, s: Shutter, e: nat, start: int, period: nat, t: u32)
    requires s0.direction.Moving() && s0.travelTime > 0
    requires FULLY_CLOSED <= s0.position <= FULLY_OPEN
    requires SameTargets(s, s0) && Running(s0, s, e, start)
    requires 0 <= start && t == start + e + period
    ensures Integrated(s, t) == Advance(s0.position, s0.direction.Sign(), e + period, s0.travelTime)
  {
    assert Elapsed(t, s.startTime) == period;
    AdvanceComposes(s0.position, s0.direction.Sign(), e, period, s0.travelTime);
  }

  /** One more tick of a running shutter keeps it running or parks it. */
  lemma RunningStep(s0: Shutter, w: World, i: int, e: nat, start: int, period: nat, t: u32, ready: bool)
    requires Inv(w) && 0 <= i < MAX_SHUTTERS
    requires s0.active && s0.direction.Moving() && s0.travelTime > 0
    requires FULLY_CLOSED <= s0.position <= FULLY_OPEN
    requires SameConfig(w.slots[i], s0) && SameTargets(w.slots[i], s0)
    requires Running(s0, w.slots[i], e, start)
    requires 0 <= start && period > 0 && t == start + e + period
    ensures var w' := TickSlot(w, i, t, ready);
            Running(s0, w'.slots[i], e + period, start) || Parked(s0, w', i)
  {
    assert IsActive(w, i);
    IntegratedAfter(s0, w.slots[i], e, start, period, t);
  }

  /** One more tick keeps the progress description, `period` ms later. */
  lemma ProgressStep(s0: Shutter, w: World, w': World, i: int, e: nat, start: u32, period: nat, e': nat, t: u32, ready: bool)
    requires Inv(w) && 0 <= i < MAX_SHUTTERS
    requires s0.active && s0.direction.Moving() && s0.travelTime > 0
    requires FULLY_CLOSED <= s0.position <= FULLY_OPEN
    requires Progress(s0, w, i, e, start)
    requires period > 0 && e' == e + period && t == start + e'
    requires w' == TickSlot(w, i, t, ready)
    ensures Progress(s0, w', i, e', start)
  {
    assert IsActive(w, i);
    if w.slots[i].direction == Idle {
      assert w' == w;
    } else {
      RunningStep(s0, w, i, e, start, period, t, ready);
    }
  }

  /** Before the first tick the shutter runs from where it started. */
  lemma ProgressAtStart(w: World, i: int, start: u32)
    requires Inv(w) && IsActive(w, i) && w.slots[i].direction.Moving()
    requires w.slots[i].startTime == start
    ensures Progress(w.slots[i], w, i, 0, start)
  {
    var s0 := w.slots[i];
    assert Advance(s0.position, s0.direction.Sign(), 0, s0.travelTime) == s0.position;
    assert Running(s0, s0, 0, start);
  }

  /** The last of `n` ticks is one tick after the first `n - 1`. */
  lemma TicksUnfold(w: World, i: int, start: u32, period: nat, n: nat, ready: bool)
    requires Inv(w) && n > 0 && start + Span(period, n) < WRAP
    ensures Ticks(w, i, start, period, n, ready) == TickSlot(Ticks(w, i, start, period, n - 1, ready), i, TickAt(start, period, n), ready)
  {
  }

  /** The `n`-th tick extends the progress description of the first `n - 1`. */
  lemma TicksProgressStep(w: World, i: int, start: u32, period: nat, n: nat, ready: bool)
    requires Inv(w) && IsActive(w, i) && w.slots[i].direction.Moving()
    requires period > 0 && n > 0 && start + Span(period, n) < WRAP
    requires Progress(w.slots[i], Ticks(w, i, start, period, n - 1, ready), i, Span(period, n - 1), start)
    ensures Progress(w.slots[i], Ticks(w, i, start, period, n, ready), i, Span(period, n), start)
  {
    assert Span(period, n) == Span(period, n - 1) + period;
    var w1 := Ticks(w, i, start, period, n - 1, ready);
    TicksUnfold(w, i, start, period, n, ready);
    ProgressStep(w.slots[i], w1, Ticks(w, i, start, period, n, ready), i, Span(period, n - 1), start, period,
                 Span(period, n), TickAt(start, period, n), ready);
  }

  lemma {:induction false} TicksProgress(w: World, i: int, start: u32, period: nat, n: nat, ready: bool)
    requires Inv(w) && IsActive(w, i) && w.slots[i].direction.Moving()
    requires w.slots[i].startTime == start
    requires period > 0 && start + Span(period, n) < WRAP
    ensures Progress(w.slots[i], Ticks(w, i, start, period, n, ready), i, Span(period, n), start)
    decreases n
  {
    if n == 0 {
      ProgressAtStart(w, i, start);
    } else {
      TicksProgress(w, i, start, period, n - 1, ready);
      TicksProgressStep(w, i, start, period, n, ready);
    }
  }

  /** Ticking a running shutter until the integrated travel covers the way
      to its target leaves it idle, relays off, at its target or at the end
      of travel in its direction. */
  lemma TicksReachTarget(w: World, i: int, start: u32, period: nat, n: nat, ready: bool)
    requires Inv(w) && IsActive(w, i) && w.slots[i].direction.Moving()
    requires w.slots[i].startTime == start
    requires period > 0 && start + Span(period, n) < WRAP && n > 0
    requires Reached(w.slots[i], Advance(w.slots[i].position, w.slots[i].direction.Sign(), Span(period, n), w.slots[i].travelTime))
    ensures var s, s' := w.slots[i], Ticks(w, i, start, period, n, ready).slots[i];
            && s'.direction == Idle
            && RelaysOff(Ticks(w, i, start, period, n, ready).relays, s)
            && (s'.position == s.targetPosition || s'.position == EndOfTravel(s.direction))
  {
    TicksProgress(w, i, start, period, n, ready);
  }

  /** The end of travel is tested before the target: a tick that carries an
      opening shutter from 90 % past its 95 % target parks it at 100 %, five
      points beyond the target and outside the dead band around it. */
  lemma OvershootParksAtLimit(w: World, i: int, now: u32, ready: bool)
    requires Inv(w) && IsActive(w, i)
    requires w.slots[i].direction == Opening && w.slots[i].position == 90.0
    requires w.slots[i].targetPosition == 95.0 && w.slots[i].travelTime == 10000
    requires Elapsed(now, w.slots[i].startTime) == 1000
    ensures var s, s' := w.slots[i], TickSlot(w, i, now, ready).slots[i];
            && s'.direction == Idle && s'.position == FULLY_OPEN
            && s'.position - s.targetPosition > DEAD_BAND
  {
    var s := w.slots[i];
    assert Travelled(1000, 10000) == 10.0;
    assert Integrated(s, now) == FULLY_OPEN;
  }

  /** Ticks that add up to a full travel time always bring a running shutter
      to rest. */
  lemma TicksOverFullTravelStop(w: World, i: int, start: u32, period: nat, n: nat, ready: bool)
    requires Inv(w) && IsActive(w, i) && w.slots[i].direction.Moving()
    requires w.slots[i].startTime == start
    requires period > 0 && start + Span(period, n) < WRAP && n > 0
    requires Span(period, n) >= w.slots[i].travelTime
    ensures Ticks(w, i, start, period, n, ready).slots[i].direction == Idle
  {
    var s := w.slots[i];
    FullTravelReachesLimit(s.position, s.direction.Sign(), Span(period, n), s.travelTime);
    TicksReachTarget(w, i, start, period, n, ready);
  }

  /** A request to open fully, made while the shutter is idle at fully
      closed with its relays off, switches the open relay on at once. */
  lemma OpenRequestStartsAtOnce(w: World, i: int, t0: u32, ready: bool)
    requires Inv(w) && IsActive(w, i)
    requires w.slots[i].direction == Idle && RelaysOff(w.relays, w.slots[i])
    requires w.slots[i].position == 0.0
    ensures var s1 := SetPosition(w, i, 100.0, t0, ready).slots[i];
            && s1.direction == Opening && s1.position == 0.0 && s1.startTime == t0
            && s1.targetPosition == 100.0 && s1.travelTime == w.slots[i].travelTime
            && Energized(SetPosition(w, i, 100.0, t0, ready).relays, w.slots[i], Opening)
  {
    assert Clamp(100.0) == 100.0;
    assert Toward(0.0, 100.0) == Opening;
    assert !Gate(w, w.slots[i], false);
  }

  /** Opening from fully closed with the relays off: the open relay is
      switched on at once, and ten one-second ticks over a 10 s travel time
      leave the shutter fully open, idle, with both relays off. */
  lemma ScenarioOpenFully(w: World, i: int, t0: u32, ready: bool)
    requires Inv(w) && IsActive(w, i)
    requires w.slots[i].direction == Idle && RelaysOff(w.relays, w.slots[i])
    requires w.slots[i].position == 0.0 && w.slots[i].travelTime == 10000
    requires t0 + 10000 < WRAP
    ensures var w1 := SetPosition(w, i, 100.0, t0, ready);
            && w1.slots[i].direction == Opening
            && Energized(w1.relays, w.slots[i], Opening)
            && var w2 := Ticks(w1, i, t0, 1000, 10, ready);
               && w2.slots[i].direction == Idle
               && w2.slots[i].position == 100.0
               && RelaysOff(w2.relays, w.slots[i])
  {
    var w1 := SetPosition(w, i, 100.0, t0, ready);
    OpenRequestStartsAtOnce(w, i, t0, ready);
    SpanIsProduct(1000, 10);
    FullTravelReachesLimit(0.0, 1, Span(1000, 10), 10000);
    TicksReachTarget(w1, i, t0, 1000, 10, ready);
  }

  /** Reversal while opening with the open relay on: the request stops the
      motor and enters the interlock wait; ticks before the delay change
      nothing, and the first tick after it switches the close relay on. */
  lemma ScenarioReversal(w: World, i: int, target: real, t0: u32, t1: u32, t2: u32, r0: bool, r1: bool, r2: bool)
    requires Inv(w) && IsActive(w, i)
    requires w.slots[i].direction == Opening && Energized(w.relays, w.slots[i], Opening)
    requires w.slots[i].interlockDelay > 0
    requires Toward(w.slots[i].position, Clamp(target)) == Closing
    ensures var w1 := SetPosition(w, i, target, t0, r0);
            && w1.slots[i].direction == InterlockWait
            && w1.slots[i].targetDirection == Closing
            && RelaysOff(w1.relays, w.slots[i])
            && (Elapsed(t1, t0) < w.slots[i].interlockDelay ==> TickSlot(w1, i, t1, r1) == w1)
            && (Elapsed(t2, t0) >= w.slots[i].interlockDelay ==>
                  var w2 := TickSlot(w1, i, t2, r2);
                  w2.slots[i].direction == Closing && Energized(w2.relays, w.slots[i], Closing))
  {
  }

  /** The counterexample: a closing shutter is asked to open twice, 0 to 499
      ms apart. The first request stops the close relay and starts the wait;
      the second switches the open relay on before the delay has passed. */
  lemma AsWrittenReversalCounterexample(w: World, i: int, t1: u32, t2: u32, ready: bool)
    requires Inv(w) && IsActive(w, i)
    requires w.slots[i].direction == Closing && Energized(w.relays, w.slots[i], Closing)
    requires w.slots[i].startTime == t1 && w.slots[i].position < 99.0
    requires w.slots[i].interlockDelay == 500
    requires t1 <= t2 < t1 + 500
    ensures var w1 := SetPosition(w, i, 100.0, t1, ready);
            var w2 := SetPosition(w1, i, 100.0, t2, ready);
            && w1.slots[i].direction == InterlockWait
            && RelaysOff(w1.relays, w.slots[i])
            && Elapsed(t2, t1) < w.slots[i].interlockDelay
            && w2.slots[i].direction == Opening
            && Energized(w2.relays, w.slots[i], Opening)
  {
    var s := w.slots[i];
    var w1 := SetPosition(w, i, 100.0, t1, ready);
    assert Integrated(s, t1) == s.position;
    assert w1.slots[i].position == s.position;
  }

  /** The counterexample's requests under the corrected gate: after both the
      shutter still waits with its relays off, and the open relay goes on
      only at a tick a full delay after the second request. */
  lemma CorrectedReversalWaits(w: World, i: int, t1: u32, t2: u32, t3: u32, ready: bool)
    requires Inv(w) && IsActive(w, i)
    requires w.slots[i].direction == Closing && Energized(w.relays, w.slots[i], Closing)
    requires w.slots[i].startTime == t1 && w.slots[i].position < 99.0
    requires w.slots[i].interlockDelay == 500
    ensures var w1 := SetPositionCorrected(w, i, 100.0, t1, ready);
            var w2 := SetPositionCorrected(w1, i, 100.0, t2, ready);
            var w3 := TickSlot(w2, i, t3, ready);
            && w2.slots[i].direction == InterlockWait
            && RelaysOff(w2.relays, w.slots[i])
            && (Elapsed(t3, t2) < 500 ==> w3 == w2)
            && (Elapsed(t3, t2) >= 500 ==> Energized(w3.relays, w.slots[i], Opening))
  {
    var s := w.slots[i];
    var w1 := SetPositionCorrected(w, i, 100.0, t1, ready);
    assert Integrated(s, t1) == s.position;
    assert w1.slots[i].position == s.position;
  }
}

=== FILE: publisher.dfy ===
/**
 * The publish throttler (`Shutter_PublishState`): decides which of the
 * three status messages of one shutter go to the transport, and keeps the
 * per-field "last sent" bookkeeping.
 */
module Publisher {
  import opened Clock
  import opened Shutters

  /** Publishes closer together than this (ms) are suppressed unless forced or pending. */
  const MIN_PUBLISH_INTERVAL: int := 500
  /** After this long (ms) without a publish, every field is sent again. */
  const FORCE_PUBLISH_INTERVAL: int := 60000
  /** Size of the `lastSentState` buffer, terminator included. */
  const STATE_BUFFER: int := 16

  /** The state string of a shutter: its motion while a motor runs, otherwise
      where it rests. */
  function Label(s: Shutter): (l: string)
    ensures s.direction == Opening <==> l == "opening"
    ensures s.direction == Closing <==> l == "closing"
    ensures l == "open" <==> !s.direction.Moving() && s.position >= 99.0
    ensures l == "closed" <==> !s.direction.Moving() && s.position <= 1.0 && s.position < 99.0
    ensures l == "stopped" <==> !s.direction.Moving() && 1.0 < s.position < 99.0
    ensures 0 < |l| < STATE_BUFFER
  {
    match s.direction
    case Opening => "opening"
    case Closing => "closing"
    case _ =>
      if s.position >= 99.0 then "open"
      else if s.position <= 1.0 then "closed"
      else "stopped"
  }

  /** The answer the transport gives to the `k`-th coming publish call; once
      the scripted answers run out, every call fails. */
  function OutcomeAt(outs: seq<PubResult>, k: nat): PubResult {
    if k < |outs| then outs[k] else PublishFailed
  }

  /** The answers left after `n` publish calls. */
  function Drop(outs: seq<PubResult>, n: nat): seq<PubResult> {
    if n <= |outs| then outs[n..] else []
  }

  /** Time since the last successful publish, in `uint32_t` arithmetic. */
  function SincePublish(s: Shutter, now: u32): u32 {
    Elapsed(now, s.lastPublishTime)
  }

  /** Every field is due: the force interval passed or a publish is pending. */
  predicate Forced(s: Shutter, now: u32) {
    SincePublish(s, now) >= FORCE_PUBLISH_INTERVAL || s.needsRepublish
  }

  /** At least one field has something to say. */
  predicate Due(s: Shutter, now: u32) {
    || s.direction.Code() != s.lastSentDirection
    || s.position != s.lastSentPosition
    || Label(s) != s.lastSentState
    || Forced(s, now)
  }

  /** The last publish call of a round settled it: the transport accepted it
      or ran out of memory. */
  predicate Settled(attempts: seq<Attempt>) {
    |attempts| > 0 && attempts[|attempts| - 1].result in {PublishOk, PublishMemFail}
  }

  /** Bookkeeping left by one throttler call, with the publish calls it made. */
  datatype Report = Report(slot: Shutter, attempts: seq<Attempt>)

  /** The place of a message in a round: direction, then position, then
      state. */
  function Rank(m: Message): int {
    match m
    case DirectionMsg(_) => 0
    case PositionMsg(_) => 1
    case StateMsg(_) => 2
  }

  /** The publish calls of one round, in the order direction, position,
      state: a field is sent when it changed since it was last confirmed or
      when every field is forced. */
  function Calls(s: Shutter, now: u32, outs: seq<PubResult>): (calls: seq<Attempt>)
    requires Due(s, now)
    ensures 1 <= |calls| <= 3
    ensures forall k :: 0 <= k < |calls| ==> calls[k].result == OutcomeAt(outs, k)
    // at most one call per field, in the order direction, position, state
    ensures forall k :: 0 < k < |calls| ==> Rank(calls[k - 1].msg) < Rank(calls[k].msg)
    ensures forall a :: a in calls ==>
              a.msg == DirectionMsg(s.direction.Code()) || a.msg == PositionMsg(s.position) || a.msg == StateMsg(Label(s))
    ensures (exists a :: a in calls && a.msg == DirectionMsg(s.direction.Code()))
            <==> s.direction.Code() != s.lastSentDirection || Forced(s, now)
    ensures (exists a :: a in calls && a.msg == PositionMsg(s.position))
            <==> s.position != s.lastSentPosition || Forced(s, now)
    ensures (exists a :: a in calls && a.msg == StateMsg(Label(s)))
            <==> Label(s) != s.lastSentState || Forced(s, now)
    ensures Forced(s, now) ==>
              && |calls| == 3
              && calls[0].msg == DirectionMsg(s.direction.Code())
              && calls[1].msg == PositionMsg(s.position)
              && calls[2].msg == StateMsg(Label(s))
  {
    var pending := Forced(s, now);
    var d := if s.direction.Code() != s.lastSentDirection || pending
             then [Attempt(DirectionMsg(s.direction.Code()), OutcomeAt(outs, 0))] else [];
    var p := if s.position != s.lastSentPosition || pending
             then [Attempt(PositionMsg(s.position), OutcomeAt(outs, |d|))] else [];
    var l := if Label(s) != s.lastSentState || pending
             then [Attempt(StateMsg(Label(s)), OutcomeAt(outs, |d| + |p|))] else [];
    d + p + l
  }

  /** The bookkeeping after a round: each "last sent" field takes the value
      whose publish the transport confirmed; the last call of the round
      decides whether the pending flag clears and the publish time moves. */
  function Record(s: Shutter, now: u32, calls: seq<Attempt>): (s': Shutter)
    ensures SameMotion(s', s)
    ensures s'.lastSentDirection != s.lastSentDirection ==> Attempt(DirectionMsg(s.direction.Code()), PublishOk) in calls
    ensures Attempt(DirectionMsg(s.direction.Code()), PublishOk) in calls ==> s'.lastSentDirection == s.direction.Code()
    ensures s'.lastSentPosition != s.lastSentPosition ==> Attempt(PositionMsg(s.position), PublishOk) in calls
    ensures Attempt(PositionMsg(s.position), PublishOk) in calls ==> s'.lastSentPosition == s.position
    ensures s'.lastSentState != s.lastSentState ==> Attempt(StateMsg(Label(s)), PublishOk) in calls
    ensures Attempt(StateMsg(Label(s)), PublishOk) in calls ==> s'.lastSentState == Label(s)
    ensures Settled(calls) ==> s'.lastPublishTime == now && !s'.needsRepublish
    ensures !Settled(calls) ==> s'.lastPublishTime == s.lastPublishTime && s'.needsRepublish == s.needsRepublish
    ensures s'.lastReportedPosition == s.position
  {
    var settled := Settled(calls);
    s.(
      lastSentDirection :=
        if Attempt(DirectionMsg(s.direction.Code()), PublishOk) in calls then s.direction.Code() else s.lastSentDirection,
      lastSentPosition :=
        if Attempt(PositionMsg(s.position), PublishOk) in calls then s.position else s.lastSentPosition,
      lastSentState :=
        if Attempt(StateMsg(Label(s)), PublishOk) in calls then Label(s) else s.lastSentState,
      lastPublishTime := if settled then now else s.lastPublishTime,
      needsRepublish := if settled then false else s.needsRepublish,
      lastReportedPosition := s.position)
  }

  /** One call of the throttler on shutter `s`, at time `now`, with the
      transport `ready` or not, and `outs` the answers it will give. */
  function Throttle(s: Shutter, now: u32, ready: bool, outs: seq<PubResult>): (r: Report)
    ensures SameMotion(r.slot, s)
    ensures |r.attempts| <= 3
    ensures forall k :: 0 <= k < |r.attempts| ==> r.attempts[k].result == OutcomeAt(outs, k)
    ensures forall k :: 0 < k < |r.attempts| ==> Rank(r.attempts[k - 1].msg) < Rank(r.attempts[k].msg)
    // a round that sends anything sends exactly the calls of `Calls`
    ensures r.attempts != [] ==> Due(s, now) && r.attempts == Calls(s, now, outs)
    // when anything is sent at all
    ensures r.attempts != [] <==>
              ready && Due(s, now) && (SincePublish(s, now) >= MIN_PUBLISH_INTERVAL || s.needsRepublish)
    // transport not ready: nothing sent, the publish becomes pending
    ensures !ready ==> r.attempts == [] && r.slot == s.(needsRepublish := true, lastReportedPosition := s.position)
    // rate limit: nothing sent and no bookkeeping changes but the reported position
    ensures ready && SincePublish(s, now) < MIN_PUBLISH_INTERVAL && !s.needsRepublish ==>
              r.attempts == [] && r.slot.(lastReportedPosition := s.lastReportedPosition) == s
    // a pending publish sends every field regardless of change
    ensures ready && s.needsRepublish ==>
              && |r.attempts| == 3
              && r.attempts[0].msg == DirectionMsg(s.direction.Code())
              && r.attempts[1].msg == PositionMsg(s.position)
              && r.attempts[2].msg == StateMsg(Label(s))
    // the pending flag and the publish time follow the last call of the round
    ensures Settled(r.attempts) ==> r.slot.lastPublishTime == now && !r.slot.needsRepublish
    ensures !Settled(r.attempts) ==>
              r.slot.lastPublishTime == s.lastPublishTime && r.slot.needsRepublish == (s.needsRepublish || !ready)
    // the reported position catches up unless the call was rate limited
    ensures r.slot.lastReportedPosition == s.position || r.slot == s
  {
    if ready && Due(s, now) then
      if SincePublish(s, now) < MIN_PUBLISH_INTERVAL && !Forced(s, now) then
        Report(s, [])
      else
        var calls := Calls(s, now, outs);
        Report(Record(s, now, calls), calls)
    else if !ready then
      Report(s.(needsRepublish := true, lastReportedPosition := s.position), [])
    else
      Report(s.(lastReportedPosition := s.position), [])
  }

  /** The order of a round decides which field an answer belongs to: when
      the direction and the state changed and the transport fails the first
      call but accepts the second, the state is recorded as sent and the
      direction stays due for the next round. */
  lemma AnswersFollowCallOrder(s: Shutter, now: u32, outs: seq<PubResult>)
    requires !Forced(s, now) && SincePublish(s, now) >= MIN_PUBLISH_INTERVAL
    requires s.direction.Code() != s.lastSentDirection && s.position == s.lastSentPosition
    requires Label(s) != s.lastSentState
    requires |outs| >= 2 && outs[0] == PublishFailed && outs[1] == PublishOk
    ensures var r := Throttle(s, now, true, outs);
            && r.attempts == [Attempt(DirectionMsg(s.direction.Code()), PublishFailed), Attempt(StateMsg(Label(s)), PublishOk)]
            && r.slot.lastSentDirection == s.lastSentDirection && r.slot.lastSentState == Label(s)
            && r.slot.lastPublishTime == now && Due(r.slot, now)
  {
  }

  /** Each "last sent" field of a round moves only on a confirmed publish of
      that very field, and always does on one. */
  lemma ThrottleFieldBookkeeping(s: Shutter, now: u32, ready: bool, outs: seq<PubResult>)
    ensures var r := Throttle(s, now, ready, outs);
      && (r.slot.lastSentDirection != s.lastSentDirection ==> Attempt(DirectionMsg(s.direction.Code()), PublishOk) in r.attempts)
      && (Attempt(DirectionMsg(s.direction.Code()), PublishOk) in r.attempts ==> r.slot.lastSentDirection == s.direction.Code())
      && (r.slot.lastSentPosition != s.lastSentPosition ==> Attempt(PositionMsg(s.position), PublishOk) in r.attempts)
      && (Attempt(PositionMsg(s.position), PublishOk) in r.attempts ==> r.slot.lastSentPosition == s.position)
      && (r.slot.lastSentState != s.lastSentState ==> Attempt(StateMsg(Label(s)), PublishOk) in r.attempts)
      && (Attempt(StateMsg(Label(s)), PublishOk) in r.attempts ==> r.slot.lastSentState == Label(s))
  {
  }

  /** `w'` is `w` after one throttler round on slot `i`, whose record going
      into the round is `s`: the slot holds the round's bookkeeping, the
      call log grows by the round's calls and the transport's answers are
      consumed by as many. */
  ghost predicate PublishedRound(w: World, w': World, i: int, s: Shutter, now: u32, ready: bool)
    requires 0 <= i < MAX_SHUTTERS
  {
    var r := Throttle(s, now, ready, w.outcomes);
    && w'.slots[i] == r.slot
    && w'.sent == w.sent + r.attempts
    && w'.outcomes == Drop(w.outcomes, |r.attempts|)
  }

  /** The call log of `w'` extends that of `w`. */
  predicate LogGrows(w: World, w': World) {
    |w.sent| <= |w'.sent| && w'.sent[..|w.sent|] == w.sent
  }

  /** A round only appends to the log; with the transport down it sends
      nothing, consumes no answer and leaves the publish pending. */
  lemma RoundLog(w: World, w': World, i: int, s: Shutter, now: u32, ready: bool)
    requires 0 <= i < MAX_SHUTTERS && PublishedRound(w, w', i, s, now, ready)
    ensures LogGrows(w, w')
    ensures !ready ==> w'.sent == w.sent && w'.outcomes == w.outcomes && w'.slots[i].needsRepublish
  {
    var r := Throttle(s, now, ready, w.outcomes);
    assert w'.sent[..|w.sent|] == w.sent;
  }

  /** Logs that extend each other in turn extend the first. */
  lemma LogGrowsTrans(a: World, b: World, c: World)
    requires LogGrows(a, b) && LogGrows(b, c)
    ensures LogGrows(a, c)
  {
    assert c.sent[..|a.sent|] == c.sent[..|b.sent|][..|a.sent|];
  }

  /** `Shutter_PublishState(i)`: runs the throttler on slot `i`, hands its
      messages to the transport and consumes the transport's answers. */
  function PublishState(w: World, i: int, now: u32, ready: bool): (w': World)
    ensures !IsActive(w, i) ==> w' == w
    ensures IsActive(w, i) ==>
              var r := Throttle(w.slots[i], now, ready, w.outcomes);
              && w'.slots[i] == r.slot
              && w'.sent == w.sent + r.attempts
              && w'.outcomes == Drop(w.outcomes, |r.attempts|)
    ensures w'.relays == w.relays
    ensures forall j :: 0 <= j < MAX_SHUTTERS && j != i ==> w'.slots[j] == w.slots[j]
    ensures 0 <= i < MAX_SHUTTERS ==> Framed(w, w', i)
    ensures forall j :: 0 <= j < MAX_SHUTTERS ==> SameMotion(w'.slots[j], w.slots[j])
    ensures Inv(w) ==> Inv(w')
  {
    if !IsActive(w, i) then w
    else
      var r := Throttle(w.slots[i], now, ready, w.outcomes);
      var w1 := Put(w, i, r.slot);
      var w' := w1.(outcomes := Drop(w.outcomes, |r.attempts|), sent := w.sent + r.attempts);
      assert Inv(w) ==> Inv(w') by {
        if Inv(w) {
          PutKeepsInv(w, i, r.slot);
        }
      }
      w'
  }

  /** Two rounds less than the minimum interval apart: once the first has
      settled, the second sends nothing unless it is forced by a pending
      publish (set again only by an unavailable transport). The record of
      the second round, `s2`, may differ from the first round's result in
      anything but the publish time and the pending flag: a changed
      direction, estimate or label in between is still held back. */
  lemma RateLimitSuppressesSecond(s: Shutter, s2: Shutter, t1: u32, t2: u32, outs1: seq<PubResult>, outs2: seq<PubResult>)
    requires Settled(Throttle(s, t1, true, outs1).attempts)
    requires Elapsed(t2, t1) < MIN_PUBLISH_INTERVAL
    requires s2.lastPublishTime == Throttle(s, t1, true, outs1).slot.lastPublishTime
    requires s2.needsRepublish == Throttle(s, t1, true, outs1).slot.needsRepublish
    ensures Throttle(s2, t2, true, outs2).attempts == []
    ensures Throttle(s2, t2, true, outs2).slot.(lastReportedPosition := s2.lastReportedPosition) == s2
  {
  }

  /** The catch-up after an outage: a round on an unavailable transport sends
      nothing, and the next round on a ready transport sends all three fields. */
  lemma OutageThenCatchUp(s: Shutter, t1: u32, t2: u32, outs1: seq<PubResult>, outs2: seq<PubResult>)
    ensures Throttle(s, t1, false, outs1).attempts == []
    ensures var s1 := Throttle(s, t1, false, outs1).slot;
            var r := Throttle(s1, t2, true, outs2);
            && |r.attempts| == 3
            && r.attempts[0].msg == DirectionMsg(s.direction.Code())
            && r.attempts[1].msg == PositionMsg(s.position)
            && r.attempts[2].msg == StateMsg(Label(s))
  {
  }
}

=== FILE: shutters.dfy ===
/**
 * The data model of the shutter driver: one record per slot of the fixed
 * shutter table, the relay outputs, and the transport's side of publishing.
 */
module Shutters {
  import opened Clock
  import opened Estimator

  const MAX_SHUTTERS: int := 10
  /** Default full travel time (ms) of a freshly configured shutter. */
  const SHUTTER_FULL_TIME: u32 := 30000
  /** Default interlock delay (ms) of a freshly configured shutter. */
  const DEFAULT_INTERLOCK_DELAY: u32 := 500
  /** Shortest full travel time (ms) the driver accepts. */
  const MIN_TRAVEL_TIME: int := 1000
  /** A request closer than this to the current estimate does not move the motor. */
  const DEAD_BAND: real := 0.5
  /** Change of the estimate (percent) that triggers a report during a tick. */
  const REPORT_THRESHOLD: real := 2.0

  /** A value that may be absent. */
  datatype Option<T> = None | Some(value: T)

  /** The motion state of a shutter. */
  datatype Direction = Idle | Opening | Closing | InterlockWait {

    /** The integer the firmware stores in `direction` and publishes. */
    function Code(): int {
      match this
      case Idle => 0
      case Opening => 1
      case Closing => -1
      case InterlockWait => -2
    }

    /** True when a motor relay is meant to be on. */
    predicate Moving() {
      this == Opening || this == Closing
    }

    /** The factor the estimator applies to the travelled percentage. */
    function Sign(): int {
      match this
      case Opening => 1
      case Closing => -1
      case _ => 0
    }
  }

  /** One slot of the shutter table (`Shutter_t`). */
  datatype Shutter = Shutter(
    channelOpen: int,
    channelClose: int,
    position: real,
    direction: Direction,
    startTime: u32,
    travelTime: u32,
    interlockDelay: u32,
    lastSwitchTime: u32,
    targetDirection: Direction,
    targetPosition: real,
    active: bool,
    lastReportedPosition: real,
    lastSentDirection: int,
    lastSentPosition: real,
    lastSentState: string,
    lastPublishTime: u32,
    needsRepublish: bool)

  /** A slot as the driver's initialisation leaves it: the zeroed static
      record with the publish bookkeeping set to its "never sent" markers. */
  const Unconfigured: Shutter := Shutter(
    channelOpen := 0,
    channelClose := 0,
    position := 0.0,
    direction := Idle,
    startTime := 0,
    travelTime := 0,
    interlockDelay := 0,
    lastSwitchTime := 0,
    targetDirection := Idle,
    targetPosition := 0.0,
    active := false,
    lastReportedPosition := -1.0,
    lastSentDirection := -99,
    lastSentPosition := -999.0,
    lastSentState := "",
    lastPublishTime := 0,
    needsRepublish := false)

  /** The fixed-size shutter table. */
  type Table = t: seq<Shutter> | |t| == MAX_SHUTTERS witness seq(MAX_SHUTTERS, _ => Unconfigured)

  /** What the transport answers to one publish call. */
  datatype PubResult = PublishOk | PublishFailed | PublishMemFail

  /** One message, on the `direction`, `position` or `state` topic of a shutter. */
  datatype Message = DirectionMsg(code: int) | PositionMsg(percent: real) | StateMsg(text: string)

  /** A publish call together with the transport's answer. */
  datatype Attempt = Attempt(msg: Message, result: PubResult)

  /** Everything the driver reads or writes: the shutter table, the logical
      output channels, the answers the transport will give to the coming
      publish calls, and the publish calls made so far. */
  datatype World = World(slots: Table, relays: map<int, int>, outcomes: seq<PubResult>, sent: seq<Attempt>)

  /** The index guard every driver entry point applies. */
  predicate IsActive(w: World, i: int) {
    0 <= i < MAX_SHUTTERS && w.slots[i].active
  }

  /** `CHANNEL_Get`: a channel never written reads as 0. */
  function Read(relays: map<int, int>, ch: int): int {
    if ch in relays then relays[ch] else 0
  }

  /** Replaces slot `i`. */
  function Put(w: World, i: int, s: Shutter): (w': World)
    requires 0 <= i < MAX_SHUTTERS
    ensures w'.slots[i] == s && w'.relays == w.relays
    ensures w'.outcomes == w.outcomes && w'.sent == w.sent
    ensures forall j :: 0 <= j < MAX_SHUTTERS && j != i ==> w'.slots[j] == w.slots[j]
  {
    w.(slots := w.slots[i := s])
  }

  /** Same channel assignment and activation. */
  predicate SameConfig(a: Shutter, b: Shutter) {
    a.active == b.active && a.channelOpen == b.channelOpen && a.channelClose == b.channelClose
  }

  /** Same configuration and motion state; only publish bookkeeping may differ. */
  predicate SameMotion(a: Shutter, b: Shutter) {
    && SameConfig(a, b)
    && a.position == b.position
    && a.direction == b.direction
    && a.startTime == b.startTime
    && a.travelTime == b.travelTime
    && a.interlockDelay == b.interlockDelay
    && a.lastSwitchTime == b.lastSwitchTime
    && a.targetDirection == b.targetDirection
    && a.targetPosition == b.targetPosition
  }

  /** Same settings and same pending target. */
  predicate SameTargets(a: Shutter, b: Shutter) {
    && a.travelTime == b.travelTime
    && a.interlockDelay == b.interlockDelay
    && a.targetPosition == b.targetPosition
    && a.targetDirection == b.targetDirection
  }

  /** What holds of every configured slot: a usable travel time, estimate and
      target inside the physical range, and two distinct positive channels. */
  predicate SlotInv(s: Shutter) {
    s.active ==>
      && MIN_TRAVEL_TIME <= s.travelTime
      && FULLY_CLOSED <= s.position <= FULLY_OPEN
      && FULLY_CLOSED <= s.targetPosition <= FULLY_OPEN
      && 0 < s.channelOpen && 0 < s.channelClose
      && s.channelOpen != s.channelClose
  }

  /** Two slots share no output channel. */
  predicate Disjoint(a: Shutter, b: Shutter) {
    && a.channelOpen != b.channelOpen && a.channelOpen != b.channelClose
    && a.channelClose != b.channelOpen && a.channelClose != b.channelClose
  }

  /** The table invariant: every slot is sound and no channel is owned by two
      active slots. */
  predicate Inv(w: World) {
    && (forall i :: 0 <= i < MAX_SHUTTERS ==> SlotInv(w.slots[i]))
    && (forall i, j ::
          0 <= i < MAX_SHUTTERS && 0 <= j < MAX_SHUTTERS && i != j && w.slots[i].active && w.slots[j].active
          ==> Disjoint(w.slots[i], w.slots[j]))
  }

  /** Replacing one slot by a sound slot with the same configuration keeps
      the table invariant. */
  lemma PutKeepsInv(w: World, i: int, s: Shutter)
    requires Inv(w) && 0 <= i < MAX_SHUTTERS
    requires SlotInv(s) && SameConfig(s, w.slots[i])
    ensures Inv(Put(w, i, s))
  {
    var w' := Put(w, i, s);
    forall a, b | 0 <= a < MAX_SHUTTERS && 0 <= b < MAX_SHUTTERS && a != b && w'.slots[a].active && w'.slots[b].active
      ensures Disjoint(w'.slots[a], w'.slots[b])
    {
      assert Disjoint(w.slots[a], w.slots[b]);
    }
  }

  /** `w'` differs from `w` at most in slot `i` (whose configuration stays),
      in the relays of slot `i`'s channels, and in the transport bookkeeping. */
  ghost predicate Framed(w: World, w': World, i: int)
    requires 0 <= i < MAX_SHUTTERS
  {
    && (forall j :: 0 <= j < MAX_SHUTTERS && j != i ==> w'.slots[j] == w.slots[j])
    && (forall ch :: ch != w.slots[i].channelOpen && ch != w.slots[i].channelClose ==> Read(w'.relays, ch) == Read(w.relays, ch))
    && SameConfig(w'.slots[i], w.slots[i])
  }

  lemma FramedTrans(w1: World, w2: World, w3: World, i: int)
    requires 0 <= i < MAX_SHUTTERS
    requires Framed(w1, w2, i) && Framed(w2, w3, i)
    ensures Framed(w1, w3, i)
  {
  }
}
